=== FILE: README.md ===
# imgcrunch batch resizer: a verified model of the batch core

This project models the core of `batch_resizer.py`, the imgcrunch batch
image converter. The tool walks a folder tree, converts every image to
JPEG, HEIC or AVIF, and shrinks images whose longest side exceeds a pixel
cap. It writes the results to an output folder, either mirroring the input
tree or flattened under a `base_001`-style rename. Afterwards it moves each
original aside into an `originals` folder, or replaces it in place.

The model covers the decisions the tool makes, stated over values, and
proves what they guarantee:

- **Resize arithmetic** (`resize.dfy`): `needs_resize` and
  `calculate_new_size`. The truncated side is a floor division, the longest
  side lands exactly on the cap, and neither side grows.
- **Format auto-detection** (`formats.dfy`): `detect_dominant_format` is an
  imperative counting loop over a map from format to count. It is proved to
  return the format holding a strict majority, and `jpeg` when no format has
  one. Which most-common entry `most_common` happens to pick does not matter.
- **Output naming** (`naming.dfy`, on top of the pathlib model in
  `paths.dfy`):
  - `get_output_path` in both modes. The flat rename pads the sequence number
    to `max(3, digits(total))` digits and gives distinct names to distinct
    numbers. The mirrored layout keeps the subfolders and swaps only the
    extension.
  - The originals path of `move_to_originals`.
  - The wizard's rename-base sanitiser.
- **Per-image transform skeleton** (`transform.dfy`): the fields of
  `process_image`'s result record. Each step either succeeds or records an
  exception message and stops. A resize target with a zero side is refused
  before `resized` is set.
- **Planning** (`planning.dfy`):
  - The exclusion filter is a plain string-prefix test. It therefore also
    drops a sibling folder such as `converted_old`.
  - The task-building loop numbers images from 1 against the full batch
    size. It skips an image whose destination is itself, and it never
    renumbers. Renamed destinations are proved pairwise distinct. In mirrored
    mode, `a.png` and `a.jpg` are shown to collide.
- **Collection** (`collector.dfy`):
  - Results are tallied into the run statistics.
  - After a success the original is replaced (unlink, then move the converted
    file over it) or moved aside, on a filesystem modelled as a map from
    paths to contents, where any unlink or move may fail.
  - A failed lifecycle step only warns: the processed, error and resize
    counts and the byte totals do not depend on which filesystem calls
    failed (the moved and replaced counts do). Replace mode takes precedence
    over `--no-move`.
  - The loop's failure test is a setting of the run: the truthiness test
    `if result['error']` as written, or the corrected test that treats every
    recorded error as a failure (see "## Findings").
  - A move that fails after the unlink leaves the original gone.

Paths are sequences of segments below the filesystem root. `str(path)` is
`"/"` followed by the segments joined with `"/"`. The pathlib operations
(`suffix`, `stem`, `with_suffix`, `relative_to`) follow the CPython 3.12
definitions.

## Model

| member | source | states |
|---|---|---|
| Paths.InsideDirHasStringPrefix | batch_resizer.py:575-579 | a path inside a folder has that folder's string form as a string prefix, so the string test excludes everything in the folder |
| Paths.Str | batch_resizer.py:575-579 | `str(path)` always starts with `/` |
| Paths.RelativeTo | batch_resizer.py:312 | `relative_to` succeeds exactly when the root is a segment prefix of the path |
| Paths.RFind | batch_resizer.py:91 | the index found is the last occurrence of the character, or -1 when there is none |
| Paths.Suffix | batch_resizer.py:91 | `suffix` is empty or a dot followed by at least one character |
| Paths.SuffixIsLastDotTail | batch_resizer.py:91 | a non-empty suffix is the tail of the name from its last dot, with no further dot |
| Paths.Name | batch_resizer.py:313 | pathlib's `name`: the last segment of the path, or `""` for no segment; its meaning is stated through `Paths.Stem`, `Paths.WithSuffix` and `Paths.PathWithSuffixKeepsFolders` |
| Paths.Stem | batch_resizer.py:313 | a non-empty name has a non-empty stem |
| Paths.StemThenSuffix | batch_resizer.py:313 | every name is its stem followed by its suffix |
| Paths.WithSuffix | batch_resizer.py:313 | `with_suffix` succeeds exactly for a non-empty name and a valid suffix (no `/`; empty, or a dot plus more) |
| Paths.WithSuffixRoundTrip | batch_resizer.py:313 | after `with_suffix(ext)` with a one-dot extension, the stem is unchanged and the suffix is `ext` |
| Paths.PathWithSuffix | batch_resizer.py:313 | a path's `with_suffix` succeeds exactly when its name is non-empty and the suffix valid |
| Paths.PathWithSuffixKeepsFolders | batch_resizer.py:313 | `with_suffix` keeps every folder segment and replaces only the name, by stem plus the new suffix |
| Resize.NeedsResize | batch_resizer.py:318-322 | a cap of 0 never resizes; otherwise a resize is needed exactly when the longest side exceeds the cap |
| Resize.Scaled | batch_resizer.py:325-333 | the scaled side is the floor of side times target over the long side, so it never exceeds the target |
| Resize.CalculateNewSize | batch_resizer.py:325-333 | the longer side (width on ties) becomes the target; the other is its floor-scaled value; the longest new side equals the target |
| Resize.ResizeShrinks | batch_resizer.py:318-333 | when a resize is needed, neither new side exceeds the original and the longest new side equals the cap |
| Formats.Format.Extension | batch_resizer.py:70-74 | every output extension is a dot and at least one more character, with no further dot and no slash |
| Formats.Lower | batch_resizer.py:91 | lower-casing keeps the length and maps every character through ASCII lower-casing |
| Formats.BucketOf | batch_resizer.py:61-66 | `.heic`/`.heif` count as heic, `.avif` as avif, and every other extension as jpeg |
| Formats.BucketOfPath | batch_resizer.py:90-91 | an image counts as heic exactly when its lower-cased suffix is `.heic` or `.heif`, as avif exactly for `.avif`, and otherwise as jpeg, including an image with no suffix |
| Formats.Count | batch_resizer.py:90-94 | a bucket's count never exceeds the number of images |
| Formats.CountsAddUp | batch_resizer.py:90-94 | the three bucket counts sum to the number of images |
| Formats.TallyStep | batch_resizer.py:92-94 | `counts[fmt] += 1` keeps the counter equal to the per-bucket counts of the images seen so far |
| Formats.TallyIsComplete | batch_resizer.py:96-101 | a complete counter sums to the number of images, and it is empty only for an empty list |
| Formats.MaxIsPresent | batch_resizer.py:99 | in a non-empty counter the bucket of largest count is a key and bounds every entry |
| Formats.MostCommonDecides | batch_resizer.py:99-104 | whichever most common bucket is picked, comparing it with half the total yields the strict-majority bucket, or jpeg |
| Formats.MajorityIsUnique | batch_resizer.py:100-103 | a bucket holding a strict majority is the dominant format |
| Formats.Dominant | batch_resizer.py:96-104 | the intended answer, defined without a counter: a non-jpeg answer holds a strict majority of the images |
| Formats.DominantIsMajority | batch_resizer.py:96-104 | a non-jpeg answer always holds a strict majority; an empty list gives jpeg |
| Formats.DetectDominantFormat | batch_resizer.py:88-104 | the counting loop returns the strict-majority format, and jpeg when there is none |
| Formats.SixJpegFourHeic | batch_resizer.py:100-104 | six jpeg-like images and four heic give jpeg |
| Formats.SevenHeicThreeJpeg | batch_resizer.py:100-104 | seven heic images and three jpeg give heic |
| Naming.DecimalString | batch_resizer.py:307 | `str(n)` is at least one digit with no leading zero |
| Naming.DecimalStringRoundTrip | batch_resizer.py:307 | reading back `str(n)` gives `n` |
| Naming.DigitCountMonotone | batch_resizer.py:306 | a larger number never has fewer digits |
| Naming.ZFill | batch_resizer.py:307 | `zfill` pads to the width on the left and keeps the digits as its tail |
| Naming.ZFillKeepsValue | batch_resizer.py:307 | zero-padding keeps the field all digits and keeps its value |
| Naming.SequenceField | batch_resizer.py:308 | `str(rename_index).zfill(pad_width)`; its shape is stated by `Naming.SequenceFieldShape` |
| Naming.PadWidth | batch_resizer.py:306 | the pad width is 3, or the digit count of the total when that is larger |
| Naming.SequenceFieldShape | batch_resizer.py:306-307 | for an index up to the total, the number field has exactly the pad width, is all digits and reads back as the index |
| Naming.RenamedFileName | batch_resizer.py:306-307 | the renamed file name starts with the base and an underscore and ends with the extension, with a number field in between |
| Naming.RenamedFileNamesDistinct | batch_resizer.py:305-307 | two different sequence numbers give two different file names |
| Naming.Renames | batch_resizer.py:305 | `if rename_base:` holds only for a present base, and never for the empty string |
| Naming.GetOutputPath | batch_resizer.py:301-315 | an output path always lies strictly inside the output folder; with a rename base it always exists and is flat; without one it exists only for an image below the input root and lies as deep below the output folder as the image lies below the root |
| Naming.RenamedOutputPath | batch_resizer.py:304-309 | with a rename base the output is `output_dir / base_NNN.ext`, flat, with the number padded to the pad width |
| Naming.MirroredOutputPath | batch_resizer.py:310-313 | without one the output exists exactly for an image strictly below the input root with a valid extension; it keeps the image's subfolders under the output folder and changes only the suffix |
| Naming.MirroredOutputKeepsStem | batch_resizer.py:310-313 | the mirrored output name has the image's stem and the output extension as its suffix |
| Naming.OriginalsPath | batch_resizer.py:421-422 | the originals path exists exactly for an image below the input root; it lies inside the originals folder, as deep as the image lies below the root |
| Naming.OriginalsMirrorInput | batch_resizer.py:419-422 | the originals path relative to the originals folder equals the image relative to the input root, under the same name |
| Naming.IsSpace | batch_resizer.py:251 | the characters `str.isspace` accepts, which `.strip()` removes; used by the contracts of `Naming.StripLeft`, `Naming.StripRight` and `Naming.Strip` |
| Naming.StripLeft | batch_resizer.py:252 | the result is a tail of the input, every removed character is whitespace (as `str.isspace` defines it), and no leading whitespace is left |
| Naming.StripRight | batch_resizer.py:252 | the result is a head of the input, every removed character is whitespace, and no trailing whitespace is left |
| Naming.Strip | batch_resizer.py:252-253 | the stripped base neither starts nor ends with whitespace, and it is empty exactly when the input is all whitespace (the `if rename_base:` test) |
| Naming.StripKeepsMiddle | batch_resizer.py:252 | what `strip()` keeps is a contiguous part of the input with only whitespace before and after it |
| Naming.SpacesToUnderscores | batch_resizer.py:255 | every space becomes an underscore and nothing else changes |
| Naming.SpacesToUnderscoresCount | batch_resizer.py:255 | after the replacement no space is left, the underscores are the old underscores plus the old spaces, and every other character occurs as often as before |
| Naming.SpacesToUnderscoresAppend | batch_resizer.py:255 | the replacement distributes over concatenation |
| Naming.KeepNameChars | batch_resizer.py:256 | only letters, digits, `_` and `-` are left, and no longer than the input |
| Naming.KeepNameCharsEmpty | batch_resizer.py:256-257 | nothing is left exactly when the input has no name character; a string of name characters is kept whole |
| Naming.KeepNameCharsCount | batch_resizer.py:256 | every name character is kept as often as it occurs, and every other character is dropped |
| Naming.KeepNameCharsAppend | batch_resizer.py:256 | the filter distributes over concatenation, so the kept characters stay in their order |
| Naming.SanitizeRenameBase | batch_resizer.py:252-261 | an accepted base is non-empty, made only of letters, digits, `_` and `-`, and no longer than the input; the base is refused exactly when the stripped input has no name character and no space |
| Naming.SanitizeKeepsNameChars | batch_resizer.py:252-256 | an accepted base keeps every name character of the stripped input as often as it occurs, each space turned into an underscore, and nothing else |
| Naming.SpaceBecomesUnderscore | batch_resizer.py:252-256 | two clean words joined by a space, as in `my vacation`, give the words joined by an underscore (`my_vacation`) |
| Naming.TrimmedIsKept | batch_resizer.py:252 | a string that neither starts nor ends with whitespace is left as it is by `strip()` |
| Naming.CleanBaseUnchanged | batch_resizer.py:252-258 | a base already made of name characters is accepted unchanged |
| Naming.SanitizeIdempotent | batch_resizer.py:252-258 | sanitising an accepted base again changes nothing |
| Transform.Initial | batch_resizer.py:339-348 | the fresh result dict: the two paths, nothing resized, no sizes, zero bytes and no error; `Transform.ProcessImage` states which fields each step fills |
| Transform.ProcessImage | batch_resizer.py:336-416 | the record keeps its paths; it has no error exactly when every step succeeds (stat, open, RGB conversion, the resample when one is due, save, stat) and the resize target has no zero side; the recorded error is the message of the first step that failed, and no output size is recorded then; the original size is recorded exactly when the image was read and converted; `resized` exactly when a resize was needed, and then the new size is `calculate_new_size`'s answer, with its long side on the cap and no side grown; a cap of 0 never resizes |
| Transform.ResampleFailureKeepsOriginalSize | batch_resizer.py:383-387 | a resample that raises leaves the original size recorded, no new size, `resized` false and the exception's message as the error |
| Transform.ResizeTarget | batch_resizer.py:384-387 | the resampler accepts exactly the targets with both sides positive, and such a target shrinks the image onto the cap |
| Transform.ThinImageIsRefused | batch_resizer.py:384-387 | a 9000x2 image capped at 3000 gets the zero-size error and is not marked resized |
| Planning.ExcludeDirs | batch_resizer.py:575-577 | the exclusion list is the output folder's string, plus the originals folder's when there is one |
| Planning.Excluded | batch_resizer.py:579 | `any(str(img).startswith(d) for d in exclude_dirs)`; stated by `Planning.FilterImages`, `Planning.InsideOutputIsExcluded`, `Planning.InsideOriginalsIsExcluded` and `Planning.SiblingFolderIsExcluded` |
| Planning.FilterImages | batch_resizer.py:578-579 | the kept images are, in their original order, exactly the images that no excluded folder string prefixes, each kept as often as it occurs |
| Planning.InsideOutputIsExcluded | batch_resizer.py:575-579 | every image inside the output folder is excluded |
| Planning.InsideOriginalsIsExcluded | batch_resizer.py:575-579 | every image inside the originals folder is excluded |
| Planning.SiblingFolderIsExcluded | batch_resizer.py:578-579 | an image in `converted_old` is excluded by output folder `converted` though it is not inside it |
| Planning.PlannableBelowRoot | batch_resizer.py:597-601 | every named image strictly below the input root gets a destination when the extension is valid |
| Planning.Destination | batch_resizer.py:598-601 | every destination lies strictly inside the output folder |
| Planning.Destinations | batch_resizer.py:597-601 | one destination per image, computed with its 1-based number and the batch size |
| Planning.Schedule | batch_resizer.py:597-604 | the tasks built from the first k images number at most k |
| Planning.Plan | batch_resizer.py:596-604 | the whole task list has at most one task per image |
| Planning.BuildTasks | batch_resizer.py:596-604 | the loop builds the plan: at most one task per image, none whose destination is its source, every source from the list |
| Planning.ScheduleBounds | batch_resizer.py:602-604 | the tasks from the first k images number at most k, and none has its source as its destination |
| Planning.SchedulePositions | batch_resizer.py:596-604 | the tasks are, in order, exactly the images whose destination differs from their source; each task's destination is the one computed from its image's 1-based position in the image list, not its position in the task list |
| Planning.PlanNeverOverwritesSource | batch_resizer.py:602-603 | no planned task writes over its own source |
| Planning.ScheduleSourcesAreSubsequence | batch_resizer.py:597-604 | the task sources form a subsequence of the image list |
| Planning.RenamedDestinationsDistinct | batch_resizer.py:596-604 | with a rename base, no two tasks share a destination |
| Planning.RenamedDestinationsDiffer | batch_resizer.py:597-601 | with a rename base, two images at different positions get different destinations |
| Planning.MirroredDestinationsCanCollide | batch_resizer.py:310-313 | without a rename base, `in/a.png` and `in/a.jpg` both map to `out/a.jpg` |
| Collector.Moved | batch_resizer.py:424 | after a move the destination holds the source's content, the source is gone when it differs, and every other path is unchanged |
| Collector.Replace | batch_resizer.py:661-678 | the replace step completes exactly when the final path exists, both calls succeed, and both files exist and differ; then the final path holds the converted content and the original (when the extension changed) and the staged file are gone; when the final path cannot be formed, the unlink is refused or the original is missing, no file changes; a failure after the unlink leaves exactly the original gone |
| Collector.ReplaceFailureAfterUnlinkLosesOriginal | batch_resizer.py:668-671 | a move that fails after the unlink leaves the original deleted and nothing else changed |
| Collector.ReplaceTouchesOnlyItsPaths | batch_resizer.py:661-678 | replacing changes no path other than the original, the converted file and the final path |
| Collector.MoveAside | batch_resizer.py:679-689 | moving aside completes exactly when the image is below the input root, present, and the move succeeds; then its content sits at the originals path, the image has left its old path and no other file changed; otherwise nothing changes |
| Collector.MoveAsideKeepsContent | batch_resizer.py:419-425 | moving aside loses no file: each keeps its content or, for the image, reappears with the same content at the originals path and is gone from its old one |
| Collector.Lifecycle | batch_resizer.py:661-689 | a failed task, or `--no-move` without `--replace`, leaves the files alone; after a success `--replace` runs the replace and, without `--replace` or `--no-move`, the original is moved aside; a completed step implies a success in replace or move mode |
| Collector.ReplaceTakesPrecedence | batch_resizer.py:661-679 | in replace mode `--no-move` changes nothing and the replace branch is taken |
| Collector.ErrorIsTruthy | batch_resizer.py:635 | the truthiness test holds only for a recorded error, and never for one with an empty message |
| Collector.Failed | batch_resizer.py:635 | under either test a failure is a recorded error; under the corrected test every recorded error is a failure |
| Collector.Record | batch_resizer.py:635-689 | one result adds exactly one to the sum of errors and processed |
| Collector.RecordCounts | batch_resizer.py:635-689 | one result adds exactly one to errors or processed; byte totals and resizes change only on success; replaced or moved goes up only for a completed step of its own mode |
| Collector.Step | batch_resizer.py:632-689 | one turn counts the result once, as an error or as processed, and a failure under the run's test leaves the files alone |
| Collector.Run | batch_resizer.py:631-692 | after k results the errors and processed add up to k |
| Collector.RunTotals | batch_resizer.py:631-692 | after k results, under the run's failure test (the truthiness test as written, or the corrected one): errors are the failures, processed the rest, resized and byte totals come from successes only, at most one lifecycle count per success and only for the active mode; `--no-move` alone leaves the files unchanged |
| Collector.TruthinessMissesEmptyMessages | batch_resizer.py:635 | the truthiness test counts no more errors than the corrected one, and exactly as many when no error message is empty |
| Collector.LifecycleFaultsOnlyWarn | batch_resizer.py:661-689 | the processed, error and resize counts and the byte totals do not depend on which filesystem calls failed |
| Collector.FailedTaskChangesNothing | batch_resizer.py:635-641 | with the corrected test a failed task counts one error and leaves every file alone |
| Collector.EmptyMessageLosesOriginal | batch_resizer.py:635-671 | with the truthiness test as written, one turn of the loop on an error with an empty message counts it as processed, and in replace mode the original is unlinked and lost |
| Collector.FileSystem.Unlink | batch_resizer.py:668 | `unlink` succeeds exactly for a present file under no fault, and then removes only that file |
| Collector.FileSystem.Move | batch_resizer.py:670 | `shutil.move` succeeds exactly for a present source under no fault, and then yields `Moved` |
| Collector.FileSystem.ReplaceOriginal | batch_resizer.py:663-671 | the step-by-step replace ends in the state and verdict `Replace` describes |
| Collector.FileSystem.MoveToOriginals | batch_resizer.py:419-425 | the step-by-step move aside ends in the state and verdict `MoveAside` describes |
| Collector.LifecycleStep | batch_resizer.py:661-689 | after a success, the replace or move-aside call ends in the state and verdict `Lifecycle` describes |
| Collector.CollectOne | batch_resizer.py:632-689 | one turn of the loop, with the run's failure test, ends in the statistics and files of one `Step` |
| Collector.Collect | batch_resizer.py:631-692 | the loop, with the run's failure test, ends in the state of `Run` over all results; errors plus processed is the number of results, and lifecycle counts never exceed the successes |

## Left out

- Decoding, colour conversion, resampling, EXIF handling and encoding are
  done by Pillow and piexif. Here the outcomes of `stat`, `Image.open`, the
  RGB conversion, `img.resize` (for a target with both sides positive),
  `img.save` and the second `stat` are passed in as a `Probe`. The
  zero-side refusal of the resampler is computed. Failures in the EXIF
  handling are caught by the source and have no outcome here.
  Quality and the format-specific save options are not modelled.
- The process pool is not modelled. The collector takes the results in
  completion order as a sequence.
- `find_images` is not modelled: `rglob` over the extension set, and the
  `sorted(set(...))` order. The image list is an input.
- `mkdir`, `tempfile.mkdtemp`, the final `rmtree`, `exists()` and `resolve()`
  are not modelled. Paths are taken as already resolved, so `resolve()` is
  the identity and symbolic links are not modelled.
- The filesystem has no folders. A move into a missing folder, or a `mkdir`
  that fails, shows up as a failing move through `Faults`.
- The wizard's prompts, argument parsing, the colour output, the progress
  bar, `format_bytes` and the summary printout (elapsed time, percentages)
  are I/O and formatting. They are not modelled.
- Resize.CalculateNewSize: `int(height * (target / width))` is float
  arithmetic. It is modelled as the exact floor `height * target / width`,
  which can differ by one pixel from the float result in rare rounding
  cases.
- Resize.NeedsResize: `max_size` is a natural number. Negative caps from the
  command line are not modelled.
- Formats.Lower: only ASCII letters are lower-cased. Python's
  `str.lower()` also folds non-ASCII letters.
- Naming.SanitizeRenameBase: `isalnum` is approximated on ASCII letters and
  digits, so non-ASCII letters and digits are dropped here but kept by
  Python. `strip` removes exactly the characters `str.isspace` accepts.
- Naming.GetOutputPath: the rename base is one path segment. A base from
  `--rename` is used unsanitised. With a leading `/` it makes the output path
  absolute and discards the output folder; with `/` or `..` inside it can
  climb out of the output folder. The contract that every output path lies
  inside the output folder (here and for Planning.Destination) therefore
  holds only for bases without `/`. The wizard's sanitiser only produces
  such bases.
- Planning.Destination: inside the output folder only for a rename base
  without `/`, as for Naming.GetOutputPath.
- Formats.DetectDominantFormat: `Counter.most_common(1)` picks the first of
  equally common entries in insertion order. Here any most common entry may
  be picked, and the result is proved the same for every choice.
- The converted files that `img.save` writes are not written into the
  modelled filesystem. Whether a staged file exists when the collector
  reaches it is part of the filesystem given to `Collect`, not a
  consequence of the task's result.
- Collector.FileSystem: the contents of files are opaque byte strings. File
  sizes are taken from the transform result rather than from the stored
  content.

## Findings

| source | as written | input that shows it | evidently intended | confidence | as-written member | corrected member |
|---|---|---|---|---|---|---|
| batch_resizer.py:635 | `if result['error']:` treats a recorded error with an empty message as a success | an exception raised without a message inside `process_image` (so `str(e) == ''`) in replace mode, before the converted file is saved: the task counts as processed, the original is unlinked, and the move of the missing converted file fails, so the image is lost | any recorded error (`result['error'] is not None`) counts as a failure and leaves the original alone | medium, not executed | Collector.EmptyMessageLosesOriginal | Collector.FailedTaskChangesNothing |


=== FILE: collector.dfy ===
/**
 * The collecting half of `main`: every finished task's result is tallied
 * into the run statistics and, after a successful conversion, the original
 * is either replaced by the converted file or moved aside into the
 * originals folder. The filesystem is a map from file paths to contents;
 * folders, `mkdir` and the removal of the temporary folder are not part of it.
 */
module Collector {
  import opened Wrappers
  import opened Paths
  import opened Naming
  import opened Transform

  /** The running totals `main` keeps for its summary. */
  datatype Stats = Stats(
    processed: nat,
    resized: nat,
    errors: nat,
    moved: nat,
    replaced: nat,
    totalInputBytes: nat,
    totalOutputBytes: nat)

  const NoStats: Stats := Stats(0, 0, 0, 0, 0, 0, 0)

  /**
   * Which results the loop treats as failures: `AsWritten` is the truthiness
   * test `if result['error']`, under which an error with an empty message
   * passes as a success; `Corrected` treats every recorded error as a failure.
   */
  datatype ErrorTest = AsWritten | Corrected

  /**
   * The fixed settings of a run: `--replace`, `--no-move`, the output
   * extension, the folders, and the failure test the loop applies.
   */
  datatype Config = Config(replaceMode: bool, noMove: bool, ext: string, originalsDir: Path, inputRoot: Path,
                           errorTest: ErrorTest)

  /** Whether the filesystem refuses the unlink or the move of one lifecycle step. */
  datatype Faults = Faults(unlinkFails: bool, moveFails: bool)

  type Content = seq<bv8>

  type Files = map<Path, Content>

  /** The filesystem after a lifecycle step, and whether the step completed without raising. */
  datatype Outcome = Outcome(files: Files, ok: bool)

  /**
   * `shutil.move(src, dst)` for a present `src`: the content now lives at
   * `dst`, replacing whatever was there, and nothing else changes.
   */
  function Moved(files: Files, src: Path, dst: Path): (r: Files)
    requires src in files
    ensures dst in r && r[dst] == files[src]
    ensures src != dst ==> src !in r
    ensures src == dst ==> r == files
    ensures forall p :: p != src && p != dst ==> (p in r <==> p in files) && (p in r ==> r[p] == files[p])
  {
    (files - {src})[dst := files[src]]
  }

  /**
   * The replace branch: the final path is the image's own path with the
   * output extension; the original is unlinked first and the converted
   * file is moved there afterwards. The first step that raises ends it.
   */
  function Replace(files: Files, img: Path, converted: Path, ext: string, faults: Faults): (o: Outcome)
    ensures o.ok <==>
      PathWithSuffix(img, ext).Some? && !faults.unlinkFails && !faults.moveFails &&
      img in files && converted in files && converted != img
    ensures o.ok ==>
      var final := PathWithSuffix(img, ext).value;
      final in o.files && o.files[final] == files[converted] &&
      (img != final ==> img !in o.files) && (converted != final ==> converted !in o.files)
    ensures PathWithSuffix(img, ext).None? || faults.unlinkFails || img !in files ==> o.files == files
    ensures PathWithSuffix(img, ext).Some? && !faults.unlinkFails && img in files && !o.ok ==>
      o.files == files - {img}
  {
    match PathWithSuffix(img, ext)
    case None => Outcome(files, false)
    case Some(final) =>
      if faults.unlinkFails || img !in files then Outcome(files, false)
      else
        var unlinked := files - {img};
        if faults.moveFails || converted !in unlinked then Outcome(unlinked, false)
        else Outcome(Moved(unlinked, converted, final), true)
  }

  /**
   * Once the original has been unlinked, a move that fails leaves the
   * image's content nowhere but in the converted file: the original is gone.
   */
  lemma ReplaceFailureAfterUnlinkLosesOriginal(files: Files, img: Path, converted: Path, ext: string, faults: Faults)
    requires PathWithSuffix(img, ext).Some? && img in files && !faults.unlinkFails
    requires faults.moveFails || converted !in files || converted == img
    ensures var o := Replace(files, img, converted, ext, faults);
      !o.ok && img !in o.files && o.files == files - {img}
  {}

  /** Replacing touches only the original, the converted file and the final path. */
  lemma ReplaceTouchesOnlyItsPaths(files: Files, img: Path, converted: Path, ext: string, faults: Faults, p: Path)
    requires p != img && p != converted
    requires PathWithSuffix(img, ext).Some? ==> p != PathWithSuffix(img, ext).value
    ensures var o := Replace(files, img, converted, ext, faults);
      (p in o.files <==> p in files) && (p in files ==> o.files[p] == files[p])
  {}

  /**
   * The move-aside branch, `move_to_originals`: the original moves to the
   * mirrored place in the originals folder, or nothing happens.
   */
  function MoveAside(files: Files, img: Path, originalsDir: Path, inputRoot: Path, faults: Faults): (o: Outcome)
    ensures o.ok <==> inputRoot <= img && !faults.moveFails && img in files
    ensures !o.ok ==> o.files == files
    ensures o.ok ==>
      var dest := OriginalsPath(img, originalsDir, inputRoot).value;
      dest in o.files && o.files[dest] == files[img] && (dest != img ==> img !in o.files) &&
      o.files == Moved(files, img, dest)
  {
    match OriginalsPath(img, originalsDir, inputRoot)
    case None => Outcome(files, false)
    case Some(dest) =>
      if faults.moveFails || img !in files then Outcome(files, false)
      else Outcome(Moved(files, img, dest), true)
  }

  /** The move aside loses no content: every file is still present, the moved one under its new path. */
  lemma MoveAsideKeepsContent(files: Files, img: Path, originalsDir: Path, inputRoot: Path, faults: Faults, p: Path)
    requires p in files
    requires MoveAside(files, img, originalsDir, inputRoot, faults).ok ==>
      p != OriginalsPath(img, originalsDir, inputRoot).value
    ensures var o := MoveAside(files, img, originalsDir, inputRoot, faults);
      if o.ok && p == img then
        var dest := OriginalsPath(img, originalsDir, inputRoot).value;
        dest in o.files && o.files[dest] == files[img] && img !in o.files
      else p in o.files && o.files[p] == files[p]
  {}

  /** `if result['error']` as written: an error whose message is the empty string is falsy. */
  predicate ErrorIsTruthy(r: TransformResult)
    ensures ErrorIsTruthy(r) ==> r.error.Some?
    ensures r.error == Some("") ==> !ErrorIsTruthy(r)
  {
    r.error.Some? && r.error.value != ""
  }

  /** Whether the loop treats a result as a failure under the given test. */
  predicate Failed(test: ErrorTest, r: TransformResult)
    ensures Failed(test, r) ==> r.error.Some?
    ensures test == Corrected ==> (Failed(test, r) <==> r.error.Some?)
  {
    match test
    case AsWritten => ErrorIsTruthy(r)
    case Corrected => r.error.Some?
  }

  /**
   * What happens to the original after one result: nothing after a
   * failure; otherwise `--replace` takes precedence over `--no-move`, and
   * without either the original is moved aside.
   */
  function Lifecycle(files: Files, r: TransformResult, failed: bool, faults: Faults, cfg: Config): (o: Outcome)
    ensures failed || (!cfg.replaceMode && cfg.noMove) ==> o == Outcome(files, false)
    ensures o.ok ==> !failed && (cfg.replaceMode || !cfg.noMove)
    ensures !failed && cfg.replaceMode ==> o == Replace(files, r.input, r.output, cfg.ext, faults)
    ensures !failed && !cfg.replaceMode && !cfg.noMove ==>
      o == MoveAside(files, r.input, cfg.originalsDir, cfg.inputRoot, faults)
  {
    if failed then Outcome(files, false)
    else if cfg.replaceMode then Replace(files, r.input, r.output, cfg.ext, faults)
    else if !cfg.noMove then MoveAside(files, r.input, cfg.originalsDir, cfg.inputRoot, faults)
    else Outcome(files, false)
  }

  /** In replace mode `--no-move` makes no difference: the replace branch is taken either way. */
  lemma ReplaceTakesPrecedence(files: Files, r: TransformResult, failed: bool, faults: Faults, cfg: Config)
    requires cfg.replaceMode
    ensures Lifecycle(files, r, failed, faults, cfg.(noMove := true)) ==
            Lifecycle(files, r, failed, faults, cfg.(noMove := false))
    ensures !failed ==> Lifecycle(files, r, failed, faults, cfg) == Replace(files, r.input, r.output, cfg.ext, faults)
  {}

  /**
   * The statistics after one result: a failure counts as an error and
   * nothing else; a success counts as processed, adds its byte sizes,
   * counts a resize, and counts a replace or a move only when that
   * lifecycle step completed.
   */
  function Record(s: Stats, r: TransformResult, failed: bool, lifecycleOk: bool, cfg: Config): (t: Stats)
    ensures t.errors + t.processed == s.errors + s.processed + 1
  {
    if failed then s.(errors := s.errors + 1)
    else
      s.(processed := s.processed + 1,
         totalInputBytes := s.totalInputBytes + r.inputBytes,
         totalOutputBytes := s.totalOutputBytes + r.outputBytes,
         resized := if r.resized then s.resized + 1 else s.resized,
         replaced := if lifecycleOk && cfg.replaceMode then s.replaced + 1 else s.replaced,
         moved := if lifecycleOk && !cfg.replaceMode && !cfg.noMove then s.moved + 1 else s.moved)
  }

  /**
   * What one result does to the totals: exactly one of errors and
   * processed goes up; the byte totals and the resize count change only on
   * success; a replace or a move counts only when its step completed, and
   * only the counter of the active mode.
   */
  lemma RecordCounts(s: Stats, r: TransformResult, failed: bool, lifecycleOk: bool, cfg: Config)
    ensures var t := Record(s, r, failed, lifecycleOk, cfg);
      (t.errors + t.processed == s.errors + s.processed + 1) &&
      (failed <==> t.errors == s.errors + 1) &&
      (failed ==> t == s.(errors := s.errors + 1)) &&
      (!failed ==> t.totalInputBytes == s.totalInputBytes + r.inputBytes && t.totalOutputBytes == s.totalOutputBytes + r.outputBytes && (t.resized == s.resized + 1 <==> r.resized) && s.resized <= t.resized <= s.resized + 1) &&
      (t.moved + t.replaced <= s.moved + s.replaced + 1) &&
      (t.replaced == s.replaced + 1 <==> !failed && lifecycleOk && cfg.replaceMode) &&
      (t.moved == s.moved + 1 <==> !failed && lifecycleOk && !cfg.replaceMode && !cfg.noMove) &&
      (s.replaced <= t.replaced && s.moved <= t.moved)
  {}

  /** The statistics and the filesystem together. */
  datatype State = State(stats: Stats, files: Files)

  /**
   * One turn of the collecting loop, with the run's failure test: a result
   * counts once, and a failure leaves the files alone.
   */
  function Step(st: State, r: TransformResult, faults: Faults, cfg: Config): (next: State)
    ensures next.stats.errors + next.stats.processed == st.stats.errors + st.stats.processed + 1
    ensures Failed(cfg.errorTest, r) ==> next.files == st.files
  {
    var o := Lifecycle(st.files, r, Failed(cfg.errorTest, r), faults, cfg);
    State(Record(st.stats, r, Failed(cfg.errorTest, r), o.ok, cfg), o.files)
  }

  /** The state after the first `k` results, in completion order. */
  function Run(results: seq<TransformResult>, faults: seq<Faults>, cfg: Config, files: Files, k: nat): (st: State)
    requires |faults| == |results| && k <= |results|
    ensures st.stats.errors + st.stats.processed == k
  {
    if k == 0 then State(NoStats, files)
    else Step(Run(results, faults, cfg, files, k - 1), results[k - 1], faults[k - 1], cfg)
  }

  /** How many of the first `k` results failed. */
  function Failures(results: seq<TransformResult>, test: ErrorTest, k: nat): (n: nat)
    requires k <= |results|
    ensures n <= k
  {
    if k == 0 then 0 else Failures(results, test, k - 1) + (if Failed(test, results[k - 1]) then 1 else 0)
  }

  /** How many of the first `k` results succeeded with a resize. */
  function Resizes(results: seq<TransformResult>, test: ErrorTest, k: nat): (n: nat)
    requires k <= |results|
    ensures n <= k - Failures(results, test, k)
  {
    if k == 0 then 0
    else Resizes(results, test, k - 1) + (if !Failed(test, results[k - 1]) && results[k - 1].resized then 1 else 0)
  }

  /** The source byte sizes of the first `k` results that succeeded. */
  function InputBytes(results: seq<TransformResult>, test: ErrorTest, k: nat): nat
    requires k <= |results|
  {
    if k == 0 then 0
    else InputBytes(results, test, k - 1) + (if Failed(test, results[k - 1]) then 0 else results[k - 1].inputBytes)
  }

  /** The output byte sizes of the first `k` results that succeeded. */
  function OutputBytes(results: seq<TransformResult>, test: ErrorTest, k: nat): nat
    requires k <= |results|
  {
    if k == 0 then 0
    else OutputBytes(results, test, k - 1) + (if Failed(test, results[k - 1]) then 0 else results[k - 1].outputBytes)
  }

  /**
   * The totals after `k` results: every result is either an error or
   * processed; resizes and byte totals come from the successes alone; at
   * most one lifecycle step counts per success, and only the mode's own
   * counter moves. With `--no-move` and no `--replace` the files stay put.
   */
  lemma {:induction false} RunTotals(results: seq<TransformResult>, faults: seq<Faults>, cfg: Config, files: Files, k: nat)
    requires |faults| == |results| && k <= |results|
    ensures var s := Run(results, faults, cfg, files, k).stats;
      s.errors == Failures(results, cfg.errorTest, k) &&
      s.processed == k - Failures(results, cfg.errorTest, k) &&
      s.resized == Resizes(results, cfg.errorTest, k) &&
      s.totalInputBytes == InputBytes(results, cfg.errorTest, k) &&
      s.totalOutputBytes == OutputBytes(results, cfg.errorTest, k) &&
      s.moved + s.replaced <= s.processed &&
      (cfg.replaceMode ==> s.moved == 0) &&
      (!cfg.replaceMode ==> s.replaced == 0) &&
      (cfg.noMove ==> s.moved == 0)
    ensures !cfg.replaceMode && cfg.noMove ==> Run(results, faults, cfg, files, k).files == files
  {
    if k > 0 {
      RunTotals(results, faults, cfg, files, k - 1);
      var st := Run(results, faults, cfg, files, k - 1);
      var r := results[k - 1];
      var failed := Failed(cfg.errorTest, r);
      RecordCounts(st.stats, r, failed, Lifecycle(st.files, r, failed, faults[k - 1], cfg).ok, cfg);
    }
  }

  /**
   * A lifecycle failure only warns: the counts of processed, failed and
   * resized images and the byte totals do not depend on which unlinks and
   * moves the filesystem refused.
   */
  lemma LifecycleFaultsOnlyWarn(results: seq<TransformResult>, faults1: seq<Faults>, faults2: seq<Faults>,
                                cfg: Config, files1: Files, files2: Files)
    requires |faults1| == |results| && |faults2| == |results|
    ensures var s1 := Run(results, faults1, cfg, files1, |results|).stats;
      var s2 := Run(results, faults2, cfg, files2, |results|).stats;
      s1.errors == s2.errors && s1.processed == s2.processed && s1.resized == s2.resized &&
      s1.totalInputBytes == s2.totalInputBytes && s1.totalOutputBytes == s2.totalOutputBytes
  {
    RunTotals(results, faults1, cfg, files1, |results|);
    RunTotals(results, faults2, cfg, files2, |results|);
  }

  /**
   * Under the truthiness test the loop counts fewer errors than under the
   * corrected one, and exactly as many when no error message is empty.
   */
  lemma {:induction false} TruthinessMissesEmptyMessages(results: seq<TransformResult>, k: nat)
    requires k <= |results|
    ensures Failures(results, AsWritten, k) <= Failures(results, Corrected, k)
    ensures (forall i :: 0 <= i < k ==> results[i].error != Some("")) ==>
      Failures(results, AsWritten, k) == Failures(results, Corrected, k)
  {
    if k > 0 {
      TruthinessMissesEmptyMessages(results, k - 1);
    }
  }

  /** With the corrected test, a failed task is counted as an error and leaves every file alone. */
  lemma FailedTaskChangesNothing(st: State, r: TransformResult, faults: Faults, cfg: Config)
    requires r.error.Some? && cfg.errorTest == Corrected
    ensures Step(st, r, faults, cfg) == State(st.stats.(errors := st.stats.errors + 1), st.files)
  {}

  /**
   * As written, a task whose exception has an empty message is counted as
   * processed; in replace mode the original is then unlinked and, the
   * converted file never having been written, the move fails: the original
   * is gone and nothing took its place.
   */
  lemma EmptyMessageLosesOriginal(s: Stats, r: TransformResult, files: Files, cfg: Config)
    requires r.error == Some("") && cfg.replaceMode && cfg.errorTest == AsWritten
    requires r.input in files && r.output !in files
    requires PathWithSuffix(r.input, cfg.ext).Some?
    ensures var next := Step(State(s, files), r, Faults(false, false), cfg);
      next.stats.processed == s.processed + 1 && next.stats.errors == s.errors &&
      next.stats.replaced == s.replaced &&
      r.input !in next.files && next.files == files - {r.input}
  {
    ReplaceFailureAfterUnlinkLosesOriginal(files, r.input, r.output, cfg.ext, Faults(false, false));
  }

  /** The filesystem the lifecycle steps act on. */
  class FileSystem {
    var files: Files

    constructor (initial: Files)
      ensures files == initial
    {
      files := initial;
    }

    /** `path.unlink()`: raises for a missing file or a refused call. */
    method Unlink(p: Path, fails: bool) returns (ok: bool)
      modifies this
      ensures ok <==> !fails && p in old(files)
      ensures files == if ok then old(files) - {p} else old(files)
    {
      if fails || p !in files {
        ok := false;
      } else {
        files := files - {p};
        ok := true;
      }
    }

    /** `shutil.move(src, dst)`: raises for a missing source or a refused call. */
    method Move(src: Path, dst: Path, fails: bool) returns (ok: bool)
      modifies this
      ensures ok <==> !fails && src in old(files)
      ensures ok ==> files == Moved(old(files), src, dst)
      ensures !ok ==> files == old(files)
    {
      if fails || src !in files {
        ok := false;
      } else {
        files := Moved(files, src, dst);
        ok := true;
      }
    }

    /** The replace branch, step by step. */
    method ReplaceOriginal(img: Path, converted: Path, ext: string, faults: Faults) returns (ok: bool)
      modifies this
      ensures Outcome(files, ok) == Replace(old(files), img, converted, ext, faults)
    {
      var final := PathWithSuffix(img, ext);
      if final.None? {
        ok := false;
        return;
      }
      ok := Unlink(img, faults.unlinkFails);
      if !ok {
        return;
      }
      ok := Move(converted, final.value, faults.moveFails);
    }

    /** `move_to_originals`, step by step. */
    method MoveToOriginals(img: Path, originalsDir: Path, inputRoot: Path, faults: Faults) returns (ok: bool)
      modifies this
      ensures Outcome(files, ok) == MoveAside(old(files), img, originalsDir, inputRoot, faults)
    {
      var dest := OriginalsPath(img, originalsDir, inputRoot);
      if dest.None? {
        ok := false;
        return;
      }
      ok := Move(img, dest.value, faults.moveFails);
    }
  }

  /** After a success: replace the original, or move it aside, or (with `--no-move`) leave it. */
  method LifecycleStep(r: TransformResult, faults: Faults, cfg: Config, fs: FileSystem) returns (ok: bool)
    modifies fs
    ensures Outcome(fs.files, ok) == Lifecycle(old(fs.files), r, false, faults, cfg)
  {
    if cfg.replaceMode {
      ok := fs.ReplaceOriginal(r.input, r.output, cfg.ext, faults);
    } else if !cfg.noMove {
      ok := fs.MoveToOriginals(r.input, cfg.originalsDir, cfg.inputRoot, faults);
    } else {
      ok := false;
    }
  }

  /** One turn of the collecting loop: tally the result and, after a success, replace or move the original. */
  method CollectOne(stats: Stats, r: TransformResult, faults: Faults, cfg: Config, fs: FileSystem)
    returns (next: Stats)
    modifies fs
    ensures State(next, fs.files) == Step(State(stats, old(fs.files)), r, faults, cfg)
  {
    next := stats;
    if Failed(cfg.errorTest, r) {
      next := next.(errors := next.errors + 1);
    } else {
      next := next.(processed := next.processed + 1,
                    totalInputBytes := next.totalInputBytes + r.inputBytes,
                    totalOutputBytes := next.totalOutputBytes + r.outputBytes);
      if r.resized {
        next := next.(resized := next.resized + 1);
      }
      var ok := LifecycleStep(r, faults, cfg, fs);
      if ok && cfg.replaceMode {
        next := next.(replaced := next.replaced + 1);
      } else if ok {
        next := next.(moved := next.moved + 1);
      }
      assert next == Record(stats, r, false, ok, cfg);
    }
  }

  /**
   * The collecting loop of `main`, over the results in the order they
   * completed, with the filesystem's answer to each lifecycle call.
   */
  method Collect(results: seq<TransformResult>, faults: seq<Faults>, cfg: Config, fs: FileSystem)
    returns (stats: Stats)
    requires |faults| == |results|
    modifies fs
    ensures State(stats, fs.files) == Run(results, faults, cfg, old(fs.files), |results|)
    ensures stats.errors + stats.processed == |results|
    ensures stats.moved + stats.replaced <= stats.processed
  {
    stats := NoStats;
    var i := 0;
    while i < |results|
      invariant 0 <= i <= |results|
      invariant State(stats, fs.files) == Run(results, faults, cfg, old(fs.files), i)
    {
      stats := CollectOne(stats, results[i], faults[i], cfg, fs);
      i := i + 1;
    }
    RunTotals(results, faults, cfg, old(fs.files), |results|);
  }
}

=== FILE: formats.dfy ===
/**
 * Output formats and dominant-format detection (`detect_dominant_format`):
 * every input extension falls into a coarse bucket, and a bucket is
 * proposed only when it holds a strict majority of the images.
 */
module Formats {
  import opened Paths

  /** The output formats of `FORMAT_CONFIG`, which double as the buckets of `EXT_TO_FORMAT`. */
  datatype Format = Jpeg | Heic | Avif
  {
    /** The file extension each format writes. */
    function Extension(): (e: string)
      ensures IsSimpleExtension(e)
    {
      match this
      case Jpeg => ".jpg"
      case Heic => ".heic"
      case Avif => ".avif"
    }
  }

  /** `str.lower` on ASCII letters; other characters are left as they are. */
  function LowerChar(c: char): char
  {
    if 'A' <= c <= 'Z' then (c as int + 32) as char else c
  }

  function Lower(s: string): (r: string)
    ensures |r| == |s|
    ensures forall i :: 0 <= i < |s| ==> r[i] == LowerChar(s[i])
  {
    if s == [] then [] else [LowerChar(s[0])] + Lower(s[1..])
  }

  /** `EXT_TO_FORMAT.get(ext, 'jpeg')`: unknown extensions count as jpeg. */
  function BucketOf(ext: string): (f: Format)
    ensures f == Heic <==> ext == ".heic" || ext == ".heif"
    ensures f == Avif <==> ext == ".avif"
  {
    if ext == ".heic" || ext == ".heif" then Heic
    else if ext == ".avif" then Avif
    else Jpeg
  }

  /** The bucket of one image: its lower-cased suffix looked up in the table. */
  function BucketOfPath(p: Path): (f: Format)
    ensures f == Heic <==> Lower(Suffix(Name(p))) == ".heic" || Lower(Suffix(Name(p))) == ".heif"
    ensures f == Avif <==> Lower(Suffix(Name(p))) == ".avif"
  {
    BucketOf(Lower(Suffix(Name(p))))
  }

  /** The bucket of every image, in order. */
  function Buckets(images: seq<Path>): (bs: seq<Format>)
    ensures |bs| == |images|
    ensures forall i :: 0 <= i < |images| ==> bs[i] == BucketOfPath(images[i])
  {
    seq(|images|, i requires 0 <= i < |images| => BucketOfPath(images[i]))
  }

  /** How many entries of `bs` are bucket `b`. */
  function Count(bs: seq<Format>, b: Format): (n: nat)
    ensures n <= |bs|
  {
    if bs == [] then 0
    else Count(bs[..|bs| - 1], b) + (if bs[|bs| - 1] == b then 1 else 0)
  }

  /** Every image lies in exactly one bucket. */
  lemma {:induction false} CountsAddUp(bs: seq<Format>)
    ensures Count(bs, Jpeg) + Count(bs, Heic) + Count(bs, Avif) == |bs|
  {
    if bs != [] {
      CountsAddUp(bs[..|bs| - 1]);
    }
  }

  /** `counts.get(b, 0)` */
  function Get(counts: map<Format, nat>, b: Format): nat
  {
    if b in counts then counts[b] else 0
  }

  /** `counts` agrees with `Count` over `bs` on every bucket and holds no zero entry. */
  predicate Tallies(counts: map<Format, nat>, bs: seq<Format>)
  {
    && (forall b :: Get(counts, b) == Count(bs, b))
    && (forall b :: b in counts ==> counts[b] > 0)
  }

  /** Counting one more entry, `counts[b] += 1`, keeps the counter in step. */
  lemma TallyStep(bs: seq<Format>, i: nat, counts: map<Format, nat>)
    requires i < |bs|
    requires Tallies(counts, bs[..i])
    ensures Tallies(counts[bs[i] := Get(counts, bs[i]) + 1], bs[..i + 1])
  {
    var next := counts[bs[i] := Get(counts, bs[i]) + 1];
    assert bs[..i + 1][..i] == bs[..i];
    forall b ensures Get(next, b) == Count(bs[..i + 1], b) {
      assert Count(bs[..i + 1], b) == Count(bs[..i], b) + (if bs[i] == b then 1 else 0);
    }
  }

  /** A bucket holding a strict majority of the images. */
  predicate IsMajority(bs: seq<Format>, b: Format)
  {
    2 * Count(bs, b) > |bs|
  }

  /** The intended answer: the strict-majority bucket, and jpeg when there is none. */
  function Dominant(images: seq<Path>): (f: Format)
    ensures f != Jpeg ==> IsMajority(Buckets(images), f)
  {
    var bs := Buckets(images);
    if IsMajority(bs, Heic) then Heic
    else if IsMajority(bs, Avif) then Avif
    else Jpeg
  }

  /** At most one bucket holds a strict majority, so `Dominant` is that bucket when there is one. */
  lemma MajorityIsUnique(images: seq<Path>, b: Format)
    requires IsMajority(Buckets(images), b)
    ensures Dominant(images) == b
  {
    CountsAddUp(Buckets(images));
  }

  /** A non-jpeg answer is always a strict majority; an empty list gives jpeg. */
  lemma DominantIsMajority(images: seq<Path>)
    ensures Dominant(images) != Jpeg ==> IsMajority(Buckets(images), Dominant(images))
    ensures images == [] ==> Dominant(images) == Jpeg
  {}

  /** A counter that agrees with `Count` on every bucket sums to the number of images. */
  lemma TallyIsComplete(bs: seq<Format>, counts: map<Format, nat>)
    requires forall b :: Get(counts, b) == Count(bs, b)
    ensures Get(counts, Jpeg) + Get(counts, Heic) + Get(counts, Avif) == |bs|
    ensures counts == map[] ==> bs == []
  {
    CountsAddUp(bs);
  }

  /**
   * Whichever most common bucket is taken, comparing its count with half
   * the total gives the majority bucket, or jpeg when there is none.
   */
  lemma MostCommonDecides(images: seq<Path>, counts: map<Format, nat>, dominant: Format)
    requires forall b :: Get(counts, b) == Count(Buckets(images), b)
    requires dominant in counts
    requires forall b :: b in counts ==> counts[b] <= counts[dominant]
    ensures 2 * counts[dominant] > |images| ==> Dominant(images) == dominant
    ensures 2 * counts[dominant] <= |images| ==> Dominant(images) == Jpeg
  {
    var bs := Buckets(images);
    if 2 * counts[dominant] > |images| {
      MajorityIsUnique(images, dominant);
    } else {
      forall b ensures !IsMajority(bs, b) {
        assert Count(bs, b) == Get(counts, b) <= counts[dominant];
      }
    }
  }

  /** In a non-empty counter without zero entries, a bucket of largest count is present. */
  lemma MaxIsPresent(counts: map<Format, nat>, best: Format)
    requires counts != map[]
    requires forall b :: b in counts ==> counts[b] > 0
    requires Get(counts, Jpeg) <= Get(counts, best)
    requires Get(counts, Heic) <= Get(counts, best)
    requires Get(counts, Avif) <= Get(counts, best)
    ensures best in counts
    ensures forall b :: b in counts ==> counts[b] <= counts[best]
  {
    var some :| some in counts;
    assert 0 < Get(counts, some) <= Get(counts, best) by {
      match some
      case Jpeg =>
      case Heic =>
      case Avif =>
    }
    forall b | b in counts ensures counts[b] <= counts[best] {
      assert counts[b] == Get(counts, b);
      match b
      case Jpeg =>
      case Heic =>
      case Avif =>
    }
  }

  /**
   * `detect_dominant_format`: fills a counter in one pass, takes a most
   * common bucket (any one: ties are resolved arbitrarily here, since
   * `most_common`'s choice among equals cannot change the answer) and keeps
   * it only when its count exceeds half the total.
   */
  method DetectDominantFormat(images: seq<Path>) returns (fmt: Format)
    ensures fmt == Dominant(images)
  {
    ghost var bs := Buckets(images);
    var counts: map<Format, nat> := map[];
    var i := 0;
    while i < |images|
      invariant 0 <= i <= |images|
      invariant Tallies(counts, bs[..i])
    {
      var b := BucketOfPath(images[i]);
      TallyStep(bs, i, counts);
      counts := counts[b := Get(counts, b) + 1];
      i := i + 1;
    }
    assert bs[..i] == bs;
    TallyIsComplete(bs, counts);
    if counts == map[] {
      return Jpeg;
    }
    var total := Get(counts, Jpeg) + Get(counts, Heic) + Get(counts, Avif);
    var best := Jpeg;
    if Get(counts, Heic) > Get(counts, best) { best := Heic; }
    if Get(counts, Avif) > Get(counts, best) { best := Avif; }
    MaxIsPresent(counts, best);
    var dominant :| dominant in counts && forall b :: b in counts ==> counts[b] <= counts[dominant];
    MostCommonDecides(images, counts, dominant);
    if 2 * counts[dominant] > total {
      fmt := dominant;
    } else {
      fmt := Jpeg;
    }
  }

  /** Six jpeg-like and four heic-like images: heic is only 40%, so jpeg is proposed. */
  lemma SixJpegFourHeic(images: seq<Path>)
    requires |images| == 10 && Count(Buckets(images), Jpeg) == 6 && Count(Buckets(images), Heic) == 4
    ensures Dominant(images) == Jpeg
  {
    CountsAddUp(Buckets(images));
  }

  /** Seven heic-like and three jpeg-like images: heic holds 70%, so heic is proposed. */
  lemma SevenHeicThreeJpeg(images: seq<Path>)
    requires |images| == 10 && Count(Buckets(images), Heic) == 7 && Count(Buckets(images), Jpeg) == 3
    ensures Dominant(images) == Heic
  {}
}

=== FILE: naming.dfy ===
/**
 * Output-file naming: the flat `base_NNN.ext` scheme, the subfolder-mirroring
 * scheme of `get_output_path`, the originals destination of
 * `move_to_originals`, and the rename-base sanitiser of the startup wizard.
 */
module Naming {
  import opened Wrappers
  import opened Paths

  predicate IsDigit(c: char)
  {
    '0' <= c <= '9'
  }

  function DigitChar(d: nat): (c: char)
    requires d < 10
    ensures IsDigit(c)
  {
    ('0' as int + d) as char
  }

  /** `str(n)` for a non-negative integer. */
  function DecimalString(n: nat): (s: string)
    ensures 1 <= |s|
    ensures forall i :: 0 <= i < |s| ==> IsDigit(s[i])
    ensures |s| == 1 || s[0] != '0'
  {
    if n < 10 then [DigitChar(n)] else DecimalString(n / 10) + [DigitChar(n % 10)]
  }

  /** The value of a string of decimal digits, leading zeros allowed. */
  function DigitsValue(s: string): nat
    requires forall i :: 0 <= i < |s| ==> IsDigit(s[i])
  {
    if s == [] then 0
    else
      var last := s[|s| - 1];
      assert IsDigit(last);
      DigitsValue(s[..|s| - 1]) * 10 + (last as int - '0' as int)
  }

  lemma {:induction false} DecimalStringRoundTrip(n: nat)
    ensures DigitsValue(DecimalString(n)) == n
  {
    if n >= 10 {
      var s := DecimalString(n);
      assert s[..|s| - 1] == DecimalString(n / 10);
      DecimalStringRoundTrip(n / 10);
    }
  }

  /** Larger numbers never have fewer digits. */
  lemma {:induction false} DigitCountMonotone(a: nat, b: nat)
    requires a <= b
    ensures |DecimalString(a)| <= |DecimalString(b)|
  {
    if a >= 10 {
      DigitCountMonotone(a / 10, b / 10);
    }
  }

  function Zeros(k: nat): (z: string)
    ensures |z| == k && forall i :: 0 <= i < k ==> z[i] == '0'
  {
    if k == 0 then "" else Zeros(k - 1) + "0"
  }

  /** `s.zfill(width)` for an unsigned digit string: zeros on the left up to `width`. */
  function ZFill(s: string, width: nat): (r: string)
    ensures |r| == if |s| >= width then |s| else width
    ensures r[|r| - |s|..] == s
  {
    if |s| >= width then s else Zeros(width - |s|) + s
  }

  lemma {:induction false} LeadingZerosKeepValue(k: nat, s: string)
    requires forall i :: 0 <= i < |s| ==> IsDigit(s[i])
    ensures forall i :: 0 <= i < |Zeros(k) + s| ==> IsDigit((Zeros(k) + s)[i])
    ensures DigitsValue(Zeros(k) + s) == DigitsValue(s)
  {
    if s == [] {
      assert Zeros(k) + s == Zeros(k);
      ZerosValue(k);
    } else {
      assert (Zeros(k) + s)[..|Zeros(k) + s| - 1] == Zeros(k) + s[..|s| - 1];
      LeadingZerosKeepValue(k, s[..|s| - 1]);
    }
  }

  lemma {:induction false} ZerosValue(k: nat)
    ensures DigitsValue(Zeros(k)) == 0
  {
    if k > 0 {
      assert Zeros(k)[..k - 1] == Zeros(k - 1);
      ZerosValue(k - 1);
    }
  }

  /** Zero-filling keeps a digit string a digit string, with the same value. */
  lemma ZFillKeepsValue(s: string, width: nat)
    requires forall i :: 0 <= i < |s| ==> IsDigit(s[i])
    ensures forall i :: 0 <= i < |ZFill(s, width)| ==> IsDigit(ZFill(s, width)[i])
    ensures DigitsValue(ZFill(s, width)) == DigitsValue(s)
  {
    if |s| < width {
      LeadingZerosKeepValue(width - |s|, s);
    }
  }

  /** `max(3, len(str(total_count)))`: at least three digits, more for large batches. */
  function PadWidth(total: nat): (w: nat)
    ensures w >= 3 && w >= |DecimalString(total)|
    ensures w == 3 || w == |DecimalString(total)|
  {
    var d := |DecimalString(total)|;
    if d > 3 then d else 3
  }

  /** The zero-padded sequence number of a renamed file. */
  function SequenceField(index: nat, total: nat): (f: string)
  {
    ZFill(DecimalString(index), PadWidth(total))
  }

  /**
   * For indices up to the batch size the numeric field is exactly
   * `max(3, digits(total))` digits wide, and it reads back as the index.
   */
  lemma SequenceFieldShape(index: nat, total: nat)
    requires index <= total
    ensures |SequenceField(index, total)| == PadWidth(total)
    ensures forall i :: 0 <= i < |SequenceField(index, total)| ==> IsDigit(SequenceField(index, total)[i])
    ensures DigitsValue(SequenceField(index, total)) == index
  {
    DigitCountMonotone(index, total);
    SequenceFieldValue(index, total);
  }

  lemma SequenceFieldValue(index: nat, total: nat)
    ensures forall i :: 0 <= i < |SequenceField(index, total)| ==> IsDigit(SequenceField(index, total)[i])
    ensures DigitsValue(SequenceField(index, total)) == index
  {
    DecimalStringRoundTrip(index);
    ZFillKeepsValue(DecimalString(index), PadWidth(total));
  }

  /** `f"{rename_base}_{str(rename_index).zfill(pad_width)}{extension}"` */
  function RenamedFileName(base: string, index: nat, total: nat, ext: string): (name: string)
    ensures |name| > |base| + |ext|
    ensures name[..|base|] == base && name[|base|] == '_' && name[|name| - |ext|..] == ext
  {
    base + "_" + SequenceField(index, total) + ext
  }

  /** Two different indices never produce the same renamed file name. */
  lemma RenamedFileNamesDistinct(base: string, i: nat, j: nat, total: nat, ext: string)
    requires i != j
    ensures RenamedFileName(base, i, total, ext) != RenamedFileName(base, j, total, ext)
  {
    var fi, fj := SequenceField(i, total), SequenceField(j, total);
    var ni, nj := RenamedFileName(base, i, total, ext), RenamedFileName(base, j, total, ext);
    var k := |base| + 1;
    if |fi| == |fj| {
      SequenceFieldValue(i, total);
      SequenceFieldValue(j, total);
      assert fi != fj;
      assert ni[k..k + |fi|] == fi;
      assert nj[k..k + |fj|] == fj;
    } else {
      assert |ni| != |nj|;
    }
  }

  /** Python truthiness of the optional rename base: `None` and `""` both mean "keep names". */
  predicate Renames(renameBase: Option<string>)
    ensures Renames(renameBase) ==> renameBase.Some?
    ensures renameBase == Some("") ==> !Renames(renameBase)
  {
    renameBase.Some? && renameBase.value != ""
  }

  /**
   * `get_output_path` without its `mkdir`: flat `output_dir/base_NNN.ext`
   * when renaming, otherwise the input's path relative to `input_root`
   * under `output_dir`, with its suffix replaced. `None` where pathlib
   * raises `ValueError` (the input is not under the root, or it is the root
   * itself, or the extension is not a valid suffix).
   */
  function GetOutputPath(input: Path, outputDir: Path, inputRoot: Path, ext: string,
                         renameBase: Option<string>, renameIndex: nat, totalCount: nat): (r: Option<Path>)
    ensures r.Some? ==> outputDir <= r.value && |r.value| > |outputDir|
    ensures Renames(renameBase) ==> r.Some? && |r.value| == |outputDir| + 1
    ensures !Renames(renameBase) && r.Some? ==>
      inputRoot <= input && |r.value| - |outputDir| == |input| - |inputRoot|
  {
    if Renames(renameBase) then
      Some(outputDir + [RenamedFileName(renameBase.value, renameIndex, totalCount, ext)])
    else
      match RelativeTo(input, inputRoot)
      case None => None
      case Some(relative) =>
        match PathWithSuffix(relative, ext)
        case None => None
        case Some(renamed) => Some(outputDir + renamed)
  }

  /**
   * With a rename base the output is flat: one file directly in
   * `output_dir`, named `base_NNN.ext` where, for an index within the
   * batch, the numeric field is `max(3, digits(total))` digits that read
   * back as the index.
   */
  lemma RenamedOutputPath(input: Path, outputDir: Path, inputRoot: Path, ext: string,
                          base: string, index: nat, total: nat)
    requires base != "" && index <= total
    ensures var r := GetOutputPath(input, outputDir, inputRoot, ext, Some(base), index, total);
      var field := SequenceField(index, total);
      r.Some? && r.value == outputDir + [base + "_" + field + ext] &&
      |field| == PadWidth(total) && DigitsValue(field) == index
  {
    assert Renames(Some(base));
    assert GetOutputPath(input, outputDir, inputRoot, ext, Some(base), index, total) ==
      Some(outputDir + [RenamedFileName(base, index, total, ext)]);
    SequenceFieldShape(index, total);
  }

  /**
   * Without a rename base the output mirrors the input: `output_dir`, then
   * the input's folders below `input_root`, then its name with the suffix
   * replaced. It exists exactly when pathlib would not raise.
   */
  lemma MirroredOutputPath(input: Path, outputDir: Path, inputRoot: Path, ext: string,
                           renameBase: Option<string>, index: nat, total: nat)
    requires !Renames(renameBase)
    ensures var r := GetOutputPath(input, outputDir, inputRoot, ext, renameBase, index, total);
      (r.Some? <==> inputRoot <= input && |input| > |inputRoot| && Name(input) != "" && IsValidSuffix(ext)) &&
      (r.Some? ==>
        |r.value| == |outputDir| + |input| - |inputRoot| &&
        r.value[..|outputDir|] == outputDir &&
        r.value[|outputDir|..|r.value| - 1] == input[|inputRoot|..|input| - 1] &&
        Name(r.value) == Stem(Name(input)) + ext)
  {
    var r := GetOutputPath(input, outputDir, inputRoot, ext, renameBase, index, total);
    if inputRoot <= input {
      var relative := input[|inputRoot|..];
      assert RelativeTo(input, inputRoot) == Some(relative);
      if |input| > |inputRoot| {
        assert Name(relative) == Name(input);
      } else {
        assert Name(relative) == "";
      }
      if r.Some? {
        PathWithSuffixKeepsFolders(relative, ext);
        var renamed := PathWithSuffix(relative, ext).value;
        assert r.value == outputDir + renamed;
        assert r.value[|outputDir|..|r.value| - 1] == renamed[..|renamed| - 1];
        assert relative[..|relative| - 1] == input[|inputRoot|..|input| - 1];
        assert Name(r.value) == Name(renamed);
      }
    }
  }

  /**
   * Without renaming, a single-dot extension replaces exactly the final
   * suffix: the output keeps the input's stem and carries `ext`.
   */
  lemma MirroredOutputKeepsStem(input: Path, outputDir: Path, inputRoot: Path, ext: string)
    requires inputRoot <= input && |input| > |inputRoot| && Name(input) != ""
    requires IsSimpleExtension(ext)
    ensures GetOutputPath(input, outputDir, inputRoot, ext, None, 0, 0).Some?
    ensures var out := Name(GetOutputPath(input, outputDir, inputRoot, ext, None, 0, 0).value);
      Stem(out) == Stem(Name(input)) && Suffix(out) == ext
  {
    MirroredOutputPath(input, outputDir, inputRoot, ext, None, 0, 0);
    WithSuffixRoundTrip(Name(input), ext);
  }

  /** `move_to_originals` without its `mkdir` and move: `originals_dir / input.relative_to(input_root)`. */
  function OriginalsPath(input: Path, originalsDir: Path, inputRoot: Path): (r: Option<Path>)
    ensures r.Some? <==> inputRoot <= input
    ensures r.Some? ==> originalsDir <= r.value && |r.value| - |originalsDir| == |input| - |inputRoot|
  {
    match RelativeTo(input, inputRoot)
    case None => None
    case Some(relative) => Some(originalsDir + relative)
  }

  /**
   * The originals folder mirrors the input tree: the moved file sits at the
   * same place relative to the originals folder as the image did relative
   * to the input root, under the same file name.
   */
  lemma OriginalsMirrorInput(input: Path, originalsDir: Path, inputRoot: Path)
    requires inputRoot <= input
    ensures var r := OriginalsPath(input, originalsDir, inputRoot).value;
      RelativeTo(r, originalsDir) == RelativeTo(input, inputRoot) &&
      (|input| > |inputRoot| ==> Name(r) == Name(input))
  {
    var r := OriginalsPath(input, originalsDir, inputRoot).value;
    assert r[|originalsDir|..] == input[|inputRoot|..];
  }

  /** The characters a rename base may keep (ASCII stand-in for `str.isalnum`). */
  predicate IsNameChar(c: char)
  {
    'a' <= c <= 'z' || 'A' <= c <= 'Z' || '0' <= c <= '9' || c == '_' || c == '-'
  }

  /** The characters `str.strip()` removes: those `str.isspace` accepts. */
  predicate IsSpace(c: char)
  {
    c == ' ' || '\t' <= c <= '\r' || '\U{1C}' <= c <= '\U{1F}' || c == '\U{85}' || c == '\U{A0}' ||
    c == '\U{1680}' || '\U{2000}' <= c <= '\U{200A}' || c == '\U{2028}' || c == '\U{2029}' ||
    c == '\U{202F}' || c == '\U{205F}' || c == '\U{3000}'
  }

  /** `str.lstrip()`: the longest prefix of whitespace is removed. */
  function StripLeft(s: string): (r: string)
    ensures |r| <= |s| && r == s[|s| - |r|..]
    ensures forall i :: 0 <= i < |s| - |r| ==> IsSpace(s[i])
    ensures r != "" ==> !IsSpace(r[0])
  {
    if s != "" && IsSpace(s[0]) then StripLeft(s[1..]) else s
  }

  /** `str.rstrip()`: the longest suffix of whitespace is removed. */
  function StripRight(s: string): (r: string)
    ensures |r| <= |s| && r == s[..|r|]
    ensures forall i :: |r| <= i < |s| ==> IsSpace(s[i])
    ensures r != "" ==> !IsSpace(r[|r| - 1])
  {
    if s != "" && IsSpace(s[|s| - 1]) then StripRight(s[..|s| - 1]) else s
  }

  /**
   * `str.strip()`: whitespace is removed from both ends, so what is left
   * neither starts nor ends with whitespace, and it is empty exactly when
   * `s` is all whitespace.
   */
  function Strip(s: string): (r: string)
    ensures |r| <= |s|
    ensures r != "" ==> !IsSpace(r[0]) && !IsSpace(r[|r| - 1])
    ensures r == "" <==> forall i :: 0 <= i < |s| ==> IsSpace(s[i])
  {
    StripRight(StripLeft(s))
  }

  /**
   * What `str.strip()` keeps is a contiguous part of `s`, and everything
   * before and after it is whitespace.
   */
  lemma StripKeepsMiddle(s: string)
    ensures var lead := |s| - |StripLeft(s)|;
      var r := Strip(s);
      lead + |r| <= |s| && r == s[lead..lead + |r|] &&
      (forall i :: 0 <= i < lead ==> IsSpace(s[i])) &&
      (forall i :: lead + |r| <= i < |s| ==> IsSpace(s[i]))
  {
    var l := StripLeft(s);
    assert forall i :: |s| - |l| <= i < |s| ==> s[i] == l[i - (|s| - |l|)];
  }

  /** `s.replace(' ', '_')` */
  function SpacesToUnderscores(s: string): (r: string)
    ensures |r| == |s|
    ensures forall i :: 0 <= i < |s| ==> r[i] == (if s[i] == ' ' then '_' else s[i])
  {
    if s == "" then "" else [if s[0] == ' ' then '_' else s[0]] + SpacesToUnderscores(s[1..])
  }

  /**
   * Replacing spaces moves every space to the underscores' count and leaves
   * every other character's count alone.
   */
  lemma {:induction false} SpacesToUnderscoresCount(s: string, c: char)
    ensures multiset(SpacesToUnderscores(s))[c] ==
      if c == ' ' then 0
      else if c == '_' then multiset(s)['_'] + multiset(s)[' ']
      else multiset(s)[c]
  {
    if s != "" {
      SpacesToUnderscoresCount(s[1..], c);
      var r := SpacesToUnderscores(s);
      assert r == [r[0]] + SpacesToUnderscores(s[1..]);
      assert multiset(r) == multiset([r[0]]) + multiset(SpacesToUnderscores(s[1..]));
      assert s == [s[0]] + s[1..];
      assert multiset(s) == multiset([s[0]]) + multiset(s[1..]);
    }
  }

  /** Every character of `s` is a name character. */
  predicate AllNameChars(s: string)
  {
    forall i :: 0 <= i < |s| ==> IsNameChar(s[i])
  }

  /** No character of `s` is a name character. */
  predicate NoNameChars(s: string)
  {
    forall i :: 0 <= i < |s| ==> !IsNameChar(s[i])
  }

  /**
   * `''.join(c for c in s if c.isalnum() or c in ('_', '-'))`: only name
   * characters are left.
   */
  function KeepNameChars(s: string): (r: string)
    ensures |r| <= |s|
    ensures AllNameChars(r)
  {
    if s == "" then ""
    else (if IsNameChar(s[0]) then [s[0]] else []) + KeepNameChars(s[1..])
  }

  /** Nothing is left exactly when `s` has no name character; a string of name characters is kept whole. */
  lemma {:induction false} KeepNameCharsEmpty(s: string)
    ensures KeepNameChars(s) == "" <==> NoNameChars(s)
    ensures AllNameChars(s) ==> KeepNameChars(s) == s
  {
    if s != "" {
      KeepNameCharsEmpty(s[1..]);
      assert s == [s[0]] + s[1..];
    }
  }

  /** Every name character is kept as often as it occurs; every other character is dropped. */
  lemma {:induction false} KeepNameCharsCount(s: string, c: char)
    ensures multiset(KeepNameChars(s))[c] == if IsNameChar(c) then multiset(s)[c] else 0
  {
    if s != "" {
      KeepNameCharsCount(s[1..], c);
      assert s == [s[0]] + s[1..];
    }
  }

  /** The filter keeps order: filtering a concatenation filters each part in turn. */
  lemma {:induction false} KeepNameCharsAppend(a: string, b: string)
    ensures KeepNameChars(a + b) == KeepNameChars(a) + KeepNameChars(b)
  {
    if a == "" {
      assert a + b == b;
    } else {
      var head := if IsNameChar(a[0]) then [a[0]] else [];
      assert (a + b)[0] == a[0];
      assert (a + b)[1..] == a[1..] + b;
      assert KeepNameChars(a + b) == head + KeepNameChars(a[1..] + b);
      KeepNameCharsAppend(a[1..], b);
      assert KeepNameChars(a) == head + KeepNameChars(a[1..]);
    }
  }

  /**
   * The wizard's rename-base sanitiser: strip, spaces to underscores, keep
   * only name characters; an empty result means "keep original names". A
   * base is refused exactly when the stripped input holds no name character
   * and no space.
   */
  function SanitizeRenameBase(input: string): (r: Option<string>)
    ensures r.Some? ==> r.value != "" && AllNameChars(r.value)
    ensures r.Some? ==> |r.value| <= |input|
    ensures r.None? <==> forall i :: 0 <= i < |Strip(input)| ==> !IsNameChar(Strip(input)[i]) && Strip(input)[i] != ' '
  {
    KeepNameCharsEmpty(SpacesToUnderscores(Strip(input)));
    var t := KeepNameChars(SpacesToUnderscores(Strip(input)));
    if t == "" then None else Some(t)
  }

  /**
   * An accepted base keeps every name character of the stripped input as
   * often as it occurs, each space turned into an underscore.
   */
  lemma SanitizeKeepsNameChars(input: string, c: char)
    requires SanitizeRenameBase(input).Some?
    ensures var r := SanitizeRenameBase(input).value;
      var t := Strip(input);
      (IsNameChar(c) && c != '_' ==> multiset(r)[c] == multiset(t)[c]) &&
      multiset(r)['_'] == multiset(t)['_'] + multiset(t)[' '] &&
      (!IsNameChar(c) ==> multiset(r)[c] == 0)
  {
    var u := SpacesToUnderscores(Strip(input));
    KeepNameCharsCount(u, c);
    KeepNameCharsCount(u, '_');
    SpacesToUnderscoresCount(Strip(input), c);
    SpacesToUnderscoresCount(Strip(input), '_');
  }

  /**
   * A space between two clean words becomes an underscore, as in
   * "my vacation" giving "my_vacation".
   */
  lemma SpaceBecomesUnderscore(a: string, b: string)
    requires a != "" && b != "" && AllNameChars(a) && AllNameChars(b)
    ensures SanitizeRenameBase(a + " " + b) == Some(a + "_" + b)
  {
    var s := a + " " + b;
    var t := a + "_" + b;
    assert s[0] == a[0] && s[|s| - 1] == b[|b| - 1];
    TrimmedIsKept(s);
    assert SpacesToUnderscores(s) == t by {
      SpacesToUnderscoresAppend(a + " ", b);
      SpacesToUnderscoresAppend(a, " ");
      NameCharsHaveNoSpaces(a);
      NameCharsHaveNoSpaces(b);
      assert SpacesToUnderscores(" ") == "_";
    }
    assert AllNameChars(t) by {
      assert AllNameChars("_");
      AllNameCharsAppend(a, "_");
      AllNameCharsAppend(a + "_", b);
    }
    KeepNameCharsEmpty(t);
  }

  lemma AllNameCharsAppend(x: string, y: string)
    requires AllNameChars(x) && AllNameChars(y)
    ensures AllNameChars(x + y)
  {
    assert forall i :: |x| <= i < |x + y| ==> (x + y)[i] == y[i - |x|];
  }

  /** A string that neither starts nor ends with whitespace is left as it is by `str.strip()`. */
  lemma TrimmedIsKept(s: string)
    requires s != "" && !IsSpace(s[0]) && !IsSpace(s[|s| - 1])
    ensures Strip(s) == s
  {
    assert StripLeft(s) == s;
  }

  /** A string of name characters holds no space, so replacing spaces leaves it alone. */
  lemma NameCharsHaveNoSpaces(s: string)
    requires AllNameChars(s)
    ensures SpacesToUnderscores(s) == s
  {
    assert forall i :: 0 <= i < |s| ==> s[i] != ' ';
  }

  /** Replacing spaces works character by character, so it distributes over concatenation. */
  lemma {:induction false} SpacesToUnderscoresAppend(a: string, b: string)
    ensures SpacesToUnderscores(a + b) == SpacesToUnderscores(a) + SpacesToUnderscores(b)
  {
    if a == "" {
      assert a + b == b;
    } else {
      assert (a + b)[0] == a[0];
      assert (a + b)[1..] == a[1..] + b;
      SpacesToUnderscoresAppend(a[1..], b);
    }
  }

  /** A base made only of name characters passes through the sanitiser unchanged. */
  lemma {:induction false} CleanBaseUnchanged(input: string)
    requires input != "" && AllNameChars(input)
    ensures SanitizeRenameBase(input) == Some(input)
  {
    assert !IsSpace(input[0]) && !IsSpace(input[|input| - 1]);
    assert StripLeft(input) == input;
    assert StripRight(input) == input;
    var u := SpacesToUnderscores(input);
    assert u == input;
    KeepNameCharsEmpty(u);
  }

  /** Sanitising is idempotent: a sanitised base is accepted as it is. */
  lemma SanitizeIdempotent(input: string)
    requires SanitizeRenameBase(input).Some?
    ensures SanitizeRenameBase(SanitizeRenameBase(input).value) == SanitizeRenameBase(input)
  {
    CleanBaseUnchanged(SanitizeRenameBase(input).value);
  }
}

=== FILE: paths.dfy ===
/**
 * Absolute POSIX paths and the parts of `pathlib` the batch resizer uses:
 * `str(path)`, `relative_to`, `name`, `suffix`, `stem` and `with_suffix`
 * (the semantics of Python 3.12's `pathlib`).
 */
module Paths {
  import opened Wrappers

  /** A resolved absolute path, as its segments below `/`: `/a/b.jpg` is `["a", "b.jpg"]`. */
  type Path = seq<string>

  /** `str(path)`: `/` for the root, otherwise `/` before every segment. */
  function Str(p: Path): (s: string)
    ensures |s| > 0 && s[0] == '/'
  {
    if p == [] then "/" else Joined(p)
  }

  function Joined(p: Path): (s: string)
    ensures p != [] ==> |s| > 0 && s[0] == '/'
  {
    if p == [] then "" else "/" + p[0] + Joined(p[1..])
  }

  lemma {:induction false} JoinedAppend(d: Path, rest: Path)
    ensures Joined(d + rest) == Joined(d) + Joined(rest)
  {
    if d == [] {
      assert d + rest == rest;
    } else {
      assert (d + rest)[1..] == d[1..] + rest;
      JoinedAppend(d[1..], rest);
    }
  }

  /**
   * A path below a directory (segment-wise) also has the directory's string
   * as a string prefix; this is why the exclusion filter never keeps a file
   * that lies inside an excluded directory.
   */
  lemma InsideDirHasStringPrefix(dir: Path, p: Path)
    requires dir <= p
    ensures Str(dir) <= Str(p)
  {
    var rest := p[|dir|..];
    assert p == dir + rest;
    if dir != [] {
      JoinedAppend(dir, rest);
    }
  }

  /** `p.relative_to(root)`; `None` where pathlib raises `ValueError`. */
  function RelativeTo(p: Path, root: Path): (r: Option<Path>)
    ensures r.Some? <==> root <= p
  {
    if root <= p then Some(p[|root|..]) else None
  }

  /** `p.name`: the last segment, empty for the root. */
  function Name(p: Path): string
  {
    if p == [] then "" else p[|p| - 1]
  }

  /** `s.rfind(c)`: the index of the last occurrence of `c`, or -1. */
  function RFind(s: string, c: char): (i: int)
    ensures -1 <= i < |s|
    ensures 0 <= i ==> s[i] == c
    ensures forall j :: i < j < |s| ==> s[j] != c
  {
    if s == [] then -1
    else if s[|s| - 1] == c then |s| - 1
    else RFind(s[..|s| - 1], c)
  }

  /** The last occurrence is pinned down by its two properties. */
  lemma RFindIs(s: string, c: char, i: nat)
    requires i < |s| && s[i] == c
    requires forall j :: i < j < |s| ==> s[j] != c
    ensures RFind(s, c) == i
  {}

  /** The dot that starts a suffix: not the first and not the last character. */
  predicate HasSuffix(name: string)
  {
    0 < RFind(name, '.') < |name| - 1
  }

  /** `PurePath.suffix` of a name. */
  function Suffix(name: string): (s: string)
    ensures s == "" || (|s| >= 2 && s[0] == '.')
  {
    if HasSuffix(name) then name[RFind(name, '.')..] else ""
  }

  /** A non-empty suffix is the tail of the name from its last dot on, and holds no other dot. */
  lemma SuffixIsLastDotTail(name: string)
    requires Suffix(name) != ""
    ensures Suffix(name) == name[|name| - |Suffix(name)|..]
    ensures forall j :: 0 < j < |Suffix(name)| ==> Suffix(name)[j] != '.'
  {
    var i := RFind(name, '.');
    assert Suffix(name) == name[i..];
  }

  /** `PurePath.stem` of a name. */
  function Stem(name: string): (s: string)
    ensures name != "" ==> s != ""
  {
    if HasSuffix(name) then name[..RFind(name, '.')] else name
  }

  /** A name is its stem followed by its suffix. */
  lemma StemThenSuffix(name: string)
    ensures name == Stem(name) + Suffix(name)
  {}

  /** The suffixes `with_suffix` accepts: empty, or a dot followed by something, and no `/`. */
  predicate IsValidSuffix(suffix: string)
  {
    '/' !in suffix && (suffix == "" || (suffix[0] == '.' && suffix != "."))
  }

  /** A single-dot extension such as `.jpg`: what every output format uses. */
  predicate IsSimpleExtension(ext: string)
  {
    |ext| >= 2 && ext[0] == '.' && '/' !in ext && '.' !in ext[1..]
  }

  /** `with_suffix` on a name; `None` where pathlib raises `ValueError`. */
  function WithSuffix(name: string, suffix: string): (r: Option<string>)
    ensures r.Some? <==> name != "" && IsValidSuffix(suffix)
  {
    if !IsValidSuffix(suffix) || name == "" then None
    else Some(Stem(name) + suffix)
  }

  /**
   * Replacing the suffix with a single-dot extension keeps the stem and
   * yields exactly that suffix: `Path("a/photo.png").with_suffix(".jpg")`
   * has stem `photo` and suffix `.jpg`.
   */
  lemma {:induction false} WithSuffixRoundTrip(name: string, ext: string)
    requires name != "" && IsSimpleExtension(ext)
    ensures WithSuffix(name, ext).Some?
    ensures Stem(WithSuffix(name, ext).value) == Stem(name)
    ensures Suffix(WithSuffix(name, ext).value) == ext
  {
    var stem := Stem(name);
    var n := stem + ext;
    assert IsValidSuffix(ext);
    assert n[|stem|] == '.';
    forall j | |stem| < j < |n| ensures n[j] != '.' {
      assert n[j] == ext[1..][j - |stem| - 1];
    }
    var i := RFind(n, '.');
    assert i == |stem|;
    assert HasSuffix(n);
    assert n[..i] == stem;
    assert n[i..] == ext;
  }

  /** `path.with_suffix(suffix)`; `None` where pathlib raises `ValueError`. */
  function PathWithSuffix(p: Path, suffix: string): (r: Option<Path>)
    ensures r.Some? <==> Name(p) != "" && IsValidSuffix(suffix)
  {
    match WithSuffix(Name(p), suffix)
    case None => None
    case Some(n) => Some(p[..|p| - 1] + [n])
  }

  /** `with_suffix` changes only the last segment: its stem stays and the suffix is replaced. */
  lemma PathWithSuffixKeepsFolders(p: Path, suffix: string)
    requires PathWithSuffix(p, suffix).Some?
    ensures var r := PathWithSuffix(p, suffix).value;
      |r| == |p| && r[..|p| - 1] == p[..|p| - 1] && Name(r) == Stem(Name(p)) + suffix
  {}
}

=== FILE: planning.dfy ===
/**
 * Planning the batch in `main`: the exclusion filter over the discovered
 * images and the loop that numbers them and builds the (source,
 * destination) task list, dropping any task that would overwrite its source.
 */
module Planning {
  import opened Wrappers
  import opened Paths
  import opened Naming

  /** The directory strings whose prefixes exclude an image: the output and, when kept, the originals folder. */
  function ExcludeDirs(outputDir: Path, originalsDir: Option<Path>): (dirs: seq<string>)
    ensures |dirs| >= 1 && dirs[0] == Str(outputDir)
    ensures originalsDir.Some? <==> |dirs| == 2
    ensures originalsDir.Some? ==> dirs[1] == Str(originalsDir.value)
  {
    [Str(outputDir)] + (if originalsDir.Some? then [Str(originalsDir.value)] else [])
  }

  /** `any(str(img).startswith(d) for d in exclude_dirs)`: a plain string-prefix test. */
  predicate Excluded(img: Path, dirs: seq<string>)
  {
    exists i :: 0 <= i < |dirs| && dirs[i] <= Str(img)
  }

  /** `a` is `b` with some elements left out, the rest in the same order. */
  predicate IsSubsequence<T(==)>(a: seq<T>, b: seq<T>)
  {
    if a == [] then true
    else if b == [] then false
    else if a[0] == b[0] then IsSubsequence(a[1..], b[1..])
    else IsSubsequence(a, b[1..])
  }

  /** The list comprehension that drops excluded images, keeping the discovery order. */
  function FilterImages(all: seq<Path>, dirs: seq<string>): (kept: seq<Path>)
    ensures |kept| <= |all|
    ensures IsSubsequence(kept, all)
    ensures forall p :: p in kept ==> p in all && !Excluded(p, dirs)
    ensures forall p :: p in all && !Excluded(p, dirs) ==> p in kept
    ensures forall p :: multiset(kept)[p] == if Excluded(p, dirs) then 0 else multiset(all)[p]
  {
    if all == [] then []
    else
      var rest := FilterImages(all[1..], dirs);
      assert all == [all[0]] + all[1..];
      if Excluded(all[0], dirs) then
        SubsequenceDropFront(rest, all);
        rest
      else [all[0]] + rest
  }

  lemma {:induction false} SubsequenceDropFront<T>(a: seq<T>, b: seq<T>)
    requires b != [] && IsSubsequence(a, b[1..])
    ensures IsSubsequence(a, b)
  {
    if a != [] && a[0] != b[0] {
      assert IsSubsequence(a, b[1..]);
    } else if a != [] {
      SubsequenceTail(a, b[1..]);
    }
  }

  lemma {:induction false} SubsequenceTail<T>(a: seq<T>, b: seq<T>)
    requires a != [] && IsSubsequence(a, b)
    ensures IsSubsequence(a[1..], b)
  {
    assert b != [];
    if a[0] == b[0] {
      SubsequenceDropFront(a[1..], b);
    } else {
      SubsequenceTail(a, b[1..]);
      SubsequenceDropFront(a[1..], b);
    }
  }

  /** Every file inside the output directory is excluded. */
  lemma InsideOutputIsExcluded(img: Path, outputDir: Path, originalsDir: Option<Path>)
    requires outputDir <= img
    ensures Excluded(img, ExcludeDirs(outputDir, originalsDir))
  {
    InsideDirHasStringPrefix(outputDir, img);
  }

  /** Every file inside the originals directory is excluded. */
  lemma InsideOriginalsIsExcluded(img: Path, outputDir: Path, originalsDir: Path)
    requires originalsDir <= img
    ensures Excluded(img, ExcludeDirs(outputDir, Some(originalsDir)))
  {
    InsideDirHasStringPrefix(originalsDir, img);
    assert ExcludeDirs(outputDir, Some(originalsDir))[1] == Str(originalsDir);
  }

  /**
   * The prefix test is on strings, not on path segments: an image in a
   * sibling folder `converted_old` is excluded along with `converted`.
   */
  lemma SiblingFolderIsExcluded()
    ensures var outputDir := ["photos", "converted"];
      var img := ["photos", "converted_old", "a.jpg"];
      !(outputDir <= img) && Excluded(img, ExcludeDirs(outputDir, None))
  {
    var outputDir: Path := ["photos", "converted"];
    var img: Path := ["photos", "converted_old", "a.jpg"];
    assert img[1] != outputDir[1];
    assert Str(outputDir) == "/photos/converted";
    assert Str(img) == "/photos/converted_old/a.jpg";
    assert Str(outputDir) <= Str(img);
  }

  /** One scheduled conversion: `(img_path, output_path)`. */
  datatype Task = Task(source: Path, destination: Path)

  /** The fixed inputs of the task-building loop. */
  datatype Layout = Layout(outputDir: Path, inputRoot: Path, ext: string, renameBase: Option<string>)

  /** `get_output_path` for the image at 1-based position `index` of a batch of `total`. */
  function Destination(layout: Layout, img: Path, index: nat, total: nat): (dest: Option<Path>)
    ensures dest.Some? ==> layout.outputDir <= dest.value && |dest.value| > |layout.outputDir|
  {
    GetOutputPath(img, layout.outputDir, layout.inputRoot, layout.ext, layout.renameBase, index, total)
  }

  /** Every image of the list gets a destination: `get_output_path` raises for none of them. */
  predicate Plannable(layout: Layout, images: seq<Path>)
  {
    forall i :: 0 <= i < |images| ==> Destination(layout, images[i], i + 1, |images|).Some?
  }

  /** Images found below the input root, with a valid extension, always get a destination. */
  lemma PlannableBelowRoot(layout: Layout, images: seq<Path>)
    requires IsValidSuffix(layout.ext)
    requires forall i :: 0 <= i < |images| ==>
      layout.inputRoot <= images[i] && |images[i]| > |layout.inputRoot| && Name(images[i]) != ""
    ensures Plannable(layout, images)
  {
    forall i | 0 <= i < |images|
      ensures Destination(layout, images[i], i + 1, |images|).Some?
    {
      if !Renames(layout.renameBase) {
        MirroredOutputPath(images[i], layout.outputDir, layout.inputRoot, layout.ext,
                           layout.renameBase, i + 1, |images|);
      }
    }
  }

  /** The destinations of the whole image list, by position. */
  function Destinations(layout: Layout, images: seq<Path>): (dests: seq<Path>)
    requires Plannable(layout, images)
    ensures |dests| == |images|
    ensures forall i :: 0 <= i < |images| ==>
      dests[i] == Destination(layout, images[i], i + 1, |images|).value
  {
    seq(|images|, i requires 0 <= i < |images| => Destination(layout, images[i], i + 1, |images|).value)
  }

  /**
   * The tasks built from the first `k` images, given each image's
   * destination: an image whose destination is itself is skipped.
   */
  function Schedule(images: seq<Path>, dests: seq<Path>, k: nat): (tasks: seq<Task>)
    requires |dests| == |images| && k <= |images|
    ensures |tasks| <= k
  {
    if k == 0 then []
    else
      Schedule(images, dests, k - 1) +
        (if dests[k - 1] != images[k - 1] then [Task(images[k - 1], dests[k - 1])] else [])
  }

  /** The whole task list. */
  function Plan(layout: Layout, images: seq<Path>): (tasks: seq<Task>)
    requires Plannable(layout, images)
    ensures |tasks| <= |images|
  {
    Schedule(images, Destinations(layout, images), |images|)
  }

  /**
   * The task-building loop of `main`: `enumerate(images, start=1)`, the
   * batch size `len(images)` for the padding, and `continue` when the
   * destination is the source.
   */
  method BuildTasks(layout: Layout, images: seq<Path>) returns (tasks: seq<Task>)
    requires Plannable(layout, images)
    ensures tasks == Plan(layout, images)
    ensures |tasks| <= |images|
    ensures forall t :: t in tasks ==> t.destination != t.source && t.source in images
  {
    ghost var dests := Destinations(layout, images);
    tasks := [];
    var i := 0;
    while i < |images|
      invariant 0 <= i <= |images|
      invariant tasks == Schedule(images, dests, i)
    {
      // `enumerate(images, start=1)` numbers the image at position `i` as `i + 1`.
      var img := images[i];
      var outputPath := Destination(layout, img, i + 1, |images|).value;
      ScheduleStep(images, dests, i, outputPath);
      if outputPath != img {
        tasks := tasks + [Task(img, outputPath)];
      }
      i := i + 1;
    }
    ScheduleBounds(images, dests, |images|);
  }

  /** One more image adds its task, unless its destination is itself. */
  lemma ScheduleStep(images: seq<Path>, dests: seq<Path>, k: nat, dest: Path)
    requires |dests| == |images| && k < |images| && dest == dests[k]
    ensures Schedule(images, dests, k + 1) ==
      Schedule(images, dests, k) + (if dest != images[k] then [Task(images[k], dest)] else [])
  {}

  /** At most one task per image, never one that overwrites its source. */
  lemma {:induction false} ScheduleBounds(images: seq<Path>, dests: seq<Path>, k: nat)
    requires |dests| == |images| && k <= |images|
    ensures |Schedule(images, dests, k)| <= k
    ensures forall t :: t in Schedule(images, dests, k) ==>
      t.destination != t.source && t.source in images[..k]
  {
    if k > 0 {
      ScheduleBounds(images, dests, k - 1);
      assert images[..k] == images[..k - 1] + [images[k - 1]];
    }
  }

  /**
   * The tasks are the images whose destination differs from their source,
   * in discovery order: `positions` maps every task to the 0-based index of
   * its image, and so to the 1-based number its destination was built with.
   */
  lemma {:induction false} SchedulePositions(images: seq<Path>, dests: seq<Path>, k: nat)
    returns (positions: seq<nat>)
    requires |dests| == |images| && k <= |images|
    ensures |positions| == |Schedule(images, dests, k)| <= k
    ensures forall j :: 0 <= j < |positions| ==> positions[j] < k
    ensures forall j, j' :: 0 <= j < j' < |positions| ==> positions[j] < positions[j']
    ensures forall j :: 0 <= j < |positions| ==>
      Schedule(images, dests, k)[j] == Task(images[positions[j]], dests[positions[j]])
    ensures forall i :: 0 <= i < k ==> (i in positions <==> dests[i] != images[i])
  {
    if k == 0 {
      positions := [];
    } else {
      var before := SchedulePositions(images, dests, k - 1);
      var prev := Schedule(images, dests, k - 1);
      if dests[k - 1] != images[k - 1] {
        positions := before + [k - 1];
        assert Schedule(images, dests, k) == prev + [Task(images[k - 1], dests[k - 1])];
        forall i | 0 <= i < k ensures i in positions <==> dests[i] != images[i] {
          assert i in positions <==> i in before || i == k - 1;
        }
      } else {
        positions := before;
        assert Schedule(images, dests, k) == prev;
        forall i | 0 <= i < k ensures i in positions <==> dests[i] != images[i] {
          assert i == k - 1 ==> i !in before;
        }
      }
    }
  }

  /** Every scheduled task has a destination other than its source. */
  lemma PlanNeverOverwritesSource(layout: Layout, images: seq<Path>)
    requires Plannable(layout, images)
    ensures forall t :: t in Plan(layout, images) ==> t.destination != t.source
    ensures |Plan(layout, images)| <= |images|
  {
    ScheduleBounds(images, Destinations(layout, images), |images|);
  }

  /** The scheduled sources are a subsequence of the image list, in the same order. */
  lemma {:induction false} ScheduleSourcesAreSubsequence(images: seq<Path>, dests: seq<Path>, k: nat)
    requires |dests| == |images| && k <= |images|
    ensures IsSubsequence(Sources(Schedule(images, dests, k)), images[..k])
  {
    if k > 0 {
      ScheduleSourcesAreSubsequence(images, dests, k - 1);
      var rest := Schedule(images, dests, k - 1);
      assert images[..k] == images[..k - 1] + [images[k - 1]];
      if dests[k - 1] != images[k - 1] {
        assert Sources(Schedule(images, dests, k)) == Sources(rest) + [images[k - 1]] by {
          SourcesAppend(rest, [Task(images[k - 1], dests[k - 1])]);
        }
        SubsequenceSnoc(Sources(rest), images[..k - 1], images[k - 1]);
      } else {
        assert Schedule(images, dests, k) == rest;
        SubsequenceExtend(Sources(rest), images[..k - 1], [images[k - 1]]);
      }
    }
  }

  function Sources(tasks: seq<Task>): (s: seq<Path>)
    ensures |s| == |tasks|
    ensures forall j :: 0 <= j < |tasks| ==> s[j] == tasks[j].source
  {
    if tasks == [] then [] else [tasks[0].source] + Sources(tasks[1..])
  }

  lemma SourcesAppend(a: seq<Task>, b: seq<Task>)
    ensures Sources(a + b) == Sources(a) + Sources(b)
  {
    assert forall j :: 0 <= j < |a + b| ==> Sources(a + b)[j] == (Sources(a) + Sources(b))[j];
  }

  lemma {:induction false} SubsequenceSnoc<T>(a: seq<T>, b: seq<T>, x: T)
    requires IsSubsequence(a, b)
    ensures IsSubsequence(a + [x], b + [x])
  {
    if a == [] {
      assert a + [x] == [x];
      SubsequenceOfSingleton(x, b);
    } else {
      assert b != [];
      assert (a + [x])[1..] == a[1..] + [x];
      assert (b + [x])[1..] == b[1..] + [x];
      if a[0] == b[0] {
        SubsequenceSnoc(a[1..], b[1..], x);
      } else {
        SubsequenceSnoc(a, b[1..], x);
      }
    }
  }

  lemma {:induction false} SubsequenceOfSingleton<T>(x: T, b: seq<T>)
    ensures IsSubsequence([x], b + [x])
  {
    if b != [] {
      assert (b + [x])[1..] == b[1..] + [x];
      SubsequenceOfSingleton(x, b[1..]);
      if b[0] != x {
        assert IsSubsequence([x], (b + [x])[1..]);
      }
    }
  }

  lemma {:induction false} SubsequenceExtend<T>(a: seq<T>, b: seq<T>, c: seq<T>)
    requires IsSubsequence(a, b)
    ensures IsSubsequence(a, b + c)
  {
    if a != [] {
      assert b != [];
      assert (b + c)[1..] == b[1..] + c;
      if a[0] == b[0] {
        SubsequenceExtend(a[1..], b[1..], c);
      } else {
        SubsequenceExtend(a, b[1..], c);
      }
    }
  }

  /**
   * With a rename base, no two scheduled tasks share a destination: each
   * carries the distinct sequence number of its image's position.
   */
  lemma RenamedDestinationsDistinct(layout: Layout, images: seq<Path>)
    requires Plannable(layout, images) && Renames(layout.renameBase)
    ensures forall j, j' :: 0 <= j < j' < |Plan(layout, images)| ==>
      Plan(layout, images)[j].destination != Plan(layout, images)[j'].destination
  {
    var dests := Destinations(layout, images);
    var positions := SchedulePositions(images, dests, |images|);
    var plan := Plan(layout, images);
    forall j, j' | 0 <= j < j' < |plan|
      ensures plan[j].destination != plan[j'].destination
    {
      var p, q := positions[j], positions[j'];
      assert plan[j].destination == dests[p];
      assert plan[j'].destination == dests[q];
      RenamedDestinationsDiffer(layout, images, p, q);
    }
  }

  lemma RenamedDestinationsDiffer(layout: Layout, images: seq<Path>, p: nat, q: nat)
    requires Plannable(layout, images) && Renames(layout.renameBase) && p < q < |images|
    ensures Destinations(layout, images)[p] != Destinations(layout, images)[q]
  {
    var base, dir := layout.renameBase.value, layout.outputDir;
    assert layout.renameBase == Some(base);
    RenamedFileNamesDistinct(base, p + 1, q + 1, |images|, layout.ext);
    var np := RenamedFileName(base, p + 1, |images|, layout.ext);
    var nq := RenamedFileName(base, q + 1, |images|, layout.ext);
    assert (dir + [np])[|dir|] == np;
    assert (dir + [nq])[|dir|] == nq;
  }

  /**
   * Without a rename base, two images in one folder that differ only in
   * their extension are given the same destination.
   */
  lemma MirroredDestinationsCanCollide()
    ensures var layout := Layout(["out"], ["in"], ".jpg", None);
      Destination(layout, ["in", "a.png"], 1, 2) == Destination(layout, ["in", "a.jpg"], 2, 2) ==
        Some(["out", "a.jpg"])
  {
    var layout := Layout(["out"], ["in"], ".jpg", None);
    RFindIs("a.png", '.', 1);
    RFindIs("a.jpg", '.', 1);
    assert Stem("a.png") == "a";
    assert Stem("a.jpg") == "a";
    assert IsValidSuffix(".jpg");
    MirroredOutputPath(["in", "a.png"], ["out"], ["in"], ".jpg", None, 1, 2);
    MirroredOutputPath(["in", "a.jpg"], ["out"], ["in"], ".jpg", None, 2, 2);
    var r1 := Destination(layout, ["in", "a.png"], 1, 2).value;
    var r2 := Destination(layout, ["in", "a.jpg"], 2, 2).value;
    assert r1[..1] == ["out"] && r2[..1] == ["out"];
    assert Name(["in", "a.png"]) == "a.png" && Name(["in", "a.jpg"]) == "a.jpg";
    assert "a" + ".jpg" == "a.jpg";
    assert r1 == [r1[0], r1[1]] && r2 == [r2[0], r2[1]];
  }
}

=== FILE: resize.dfy ===
/**
 * The resize decision and the aspect-preserving target size
 * (`needs_resize` and `calculate_new_size`).
 */
module Resize {

  /** `img.size`: width and height in pixels. */
  datatype Size = Size(width: int, height: int)

  /** A decoded image always has at least one pixel in each direction. */
  predicate IsImageSize(s: Size)
  {
    s.width >= 1 && s.height >= 1
  }

  /** The longest side, against which `max_size` is measured. */
  function Longest(width: int, height: int): int
  {
    if width >= height then width else height
  }

  /** `needs_resize`: `max_size == 0` means convert only. */
  function NeedsResize(width: int, height: int, maxSize: nat): (r: bool)
    ensures maxSize == 0 ==> !r
    ensures maxSize > 0 ==> (r <==> Longest(width, height) > maxSize)
  {
    if maxSize == 0 then false
    else width > maxSize || height > maxSize
  }

  lemma MulMono(x: nat, y: nat, b: nat)
    requires x <= y
    ensures x * b <= y * b
  {}

  lemma MulCancel(x: int, y: int, b: int)
    requires b > 0 && x * b <= y * b
    ensures x <= y
  {}

  /** `num / den` is the floor of the quotient, stated without division. */
  lemma FloorDiv(num: nat, den: nat)
    requires den > 0
    ensures (num / den) * den <= num < (num / den + 1) * den
  {
    var q, m := num / den, num % den;
    assert num == q * den + m;
    assert (q + 1) * den == q * den + den;
  }

  /**
   * The truncated proportional side `side * target / longSide`, where
   * `side <= longSide`: never more than `target`, and the floor of the
   * exact value.
   */
  function Scaled(side: nat, longSide: nat, target: nat): (s: nat)
    requires 0 < longSide && side <= longSide
    ensures s * longSide <= side * target < (s + 1) * longSide
    ensures s <= target
  {
    var s := side * target / longSide;
    FloorDiv(side * target, longSide);
    MulMono(side, longSide, target);
    assert s * longSide <= target * longSide;
    MulCancel(s, target, longSide);
    s
  }

  /**
   * `calculate_new_size`: the longer side (the width on a tie) becomes
   * exactly `target`; the other side is the proportional value, truncated.
   * The source computes `int(h * (target / w))` in floating point; this is
   * the exact `floor(h * target / w)`.
   */
  function CalculateNewSize(width: nat, height: nat, target: nat): (r: Size)
    requires width > 0 || height > 0
    ensures width >= height ==>
      (r.width == target && r.height * width <= height * target < (r.height + 1) * width)
    ensures width < height ==>
      (r.height == target && r.width * height <= width * target < (r.width + 1) * height)
    ensures 0 <= r.width <= target && 0 <= r.height <= target
    ensures Longest(r.width, r.height) == target
  {
    if width >= height then Size(target, Scaled(height, width, target))
    else Size(Scaled(width, height, target), target)
  }

  /**
   * When a resize is triggered it only ever shrinks: both new sides are at
   * most the original ones, and the longest side lands exactly on `maxSize`.
   */
  lemma ResizeShrinks(width: nat, height: nat, maxSize: nat)
    requires width >= 1 && height >= 1
    requires NeedsResize(width, height, maxSize)
    ensures CalculateNewSize(width, height, maxSize).width <= width
    ensures CalculateNewSize(width, height, maxSize).height <= height
    ensures Longest(CalculateNewSize(width, height, maxSize).width,
                    CalculateNewSize(width, height, maxSize).height) == maxSize
  {
    if width >= height {
      var h := Scaled(height, width, maxSize);
      MulMono(maxSize, width, height);
      assert h * width <= height * width;
      MulCancel(h, height, width);
    } else {
      var w := Scaled(width, height, maxSize);
      MulMono(maxSize, height, width);
      assert w * height <= width * height;
      MulCancel(w, width, height);
    }
  }
}

=== FILE: transform.dfy ===
/**
 * The dimension skeleton of `process_image`: which steps ran, which result
 * fields they filled, and the resize decision. Decoding, colour
 * conversion, resampling, metadata and encoding are done by the codec
 * library; here each is an outcome supplied by the caller.
 */
module Transform {
  import opened Wrappers
  import opened Paths
  import opened Resize

  /**
   * What the filesystem and the codec library report for one task:
   * the source's byte size (`stat`), the decoded size (`Image.open`), the
   * conversion to RGB, the resampling of a target with both sides positive
   * (`img.resize`, consulted only when a resize is due), the encode
   * (`img.save`) and the output's byte size (`stat`). An `Err` carries the
   * exception's message. Failures while reading or rewriting the EXIF block
   * are swallowed by the source and have no outcome here.
   */
  datatype Probe = Probe(
    inputBytes: Result<nat>,
    decoded: Result<Size>,
    converted: Result<()>,
    resampled: Result<()>,
    saved: Result<()>,
    outputBytes: Result<nat>)

  /** Every decoded image has at least one pixel each way. */
  predicate IsProbe(probe: Probe)
  {
    probe.decoded.Ok? ==> IsImageSize(probe.decoded.value)
  }

  /** The result record `process_image` returns. */
  datatype TransformResult = TransformResult(
    input: Path,
    output: Path,
    resized: bool,
    originalSize: Option<Size>,
    newSize: Option<Size>,
    inputBytes: nat,
    outputBytes: nat,
    error: Option<string>)

  /** The message with which the resampler refuses a target with a zero side. */
  const ZeroSizeMessage: string := "height and width must be > 0"

  /** The fresh record: nothing known yet. */
  function Initial(input: Path, output: Path): TransformResult
  {
    TransformResult(input, output, false, None, None, 0, 0, None)
  }

  /**
   * `process_image`: each step either fills its fields or records the
   * exception and stops. A resize whose truncated side comes out as zero
   * (a very thin image) is refused by the resampler before `resized` is set.
   */
  function ProcessImage(input: Path, output: Path, maxSize: nat, probe: Probe): (r: TransformResult)
    requires IsProbe(probe)
    ensures r.input == input && r.output == output
    ensures r.error.None? <==>
      probe.inputBytes.Ok? && probe.decoded.Ok? && probe.converted.Ok? && probe.saved.Ok? && probe.outputBytes.Ok? &&
      (NeedsResize(probe.decoded.value.width, probe.decoded.value.height, maxSize) ==>
        var n := CalculateNewSize(probe.decoded.value.width, probe.decoded.value.height, maxSize);
        n.width > 0 && n.height > 0 && probe.resampled.Ok?)
    ensures r.newSize.Some? ==> r.originalSize.Some?
    ensures r.resized ==> r.newSize.Some?
    ensures maxSize == 0 ==> !r.resized && r.newSize == r.originalSize
    ensures r.originalSize.Some? <==> probe.inputBytes.Ok? && probe.decoded.Ok? && probe.converted.Ok?
    ensures r.originalSize.Some? ==> r.originalSize == Some(probe.decoded.value)
    ensures r.newSize.Some? ==>
      (r.resized <==> NeedsResize(r.originalSize.value.width, r.originalSize.value.height, maxSize))
    ensures r.newSize.Some? && !r.resized ==> r.newSize == r.originalSize
    ensures r.resized ==>
      r.newSize == Some(CalculateNewSize(r.originalSize.value.width, r.originalSize.value.height, maxSize))
    ensures r.resized ==>
      Longest(r.newSize.value.width, r.newSize.value.height) == maxSize &&
      1 <= r.newSize.value.width <= r.originalSize.value.width &&
      1 <= r.newSize.value.height <= r.originalSize.value.height
    ensures r.error.None? ==> r.originalSize.Some? && r.newSize.Some?
    ensures r.error.None? ==> r.inputBytes == probe.inputBytes.value && r.outputBytes == probe.outputBytes.value
    ensures probe.inputBytes.Err? ==> r.error == Some(probe.inputBytes.message)
    ensures probe.inputBytes.Ok? && probe.decoded.Err? ==> r.error == Some(probe.decoded.message)
    ensures probe.inputBytes.Ok? && probe.decoded.Ok? && probe.converted.Err? ==>
      r.error == Some(probe.converted.message)
    ensures r.newSize.Some? && probe.saved.Err? ==> r.error == Some(probe.saved.message)
    ensures r.newSize.Some? && probe.saved.Ok? && probe.outputBytes.Err? ==>
      r.error == Some(probe.outputBytes.message)
    ensures r.error.Some? ==> r.outputBytes == 0
  {
    var base := Initial(input, output);
    match probe.inputBytes
    case Err(e) => base.(error := Some(e))
    case Ok(inBytes) =>
      var read := base.(inputBytes := inBytes);
      match probe.decoded
      case Err(e) => read.(error := Some(e))
      case Ok(size) =>
        match probe.converted
        case Err(e) => read.(error := Some(e))
        case Ok(_) =>
          var withSize := read.(originalSize := Some(size));
          var due := NeedsResize(size.width, size.height, maxSize);
          if due && ResizeTarget(size, maxSize).Err? then
            withSize.(error := Some(ZeroSizeMessage))
          else if due && probe.resampled.Err? then
            withSize.(error := Some(probe.resampled.message))
          else
            var final := if due then ResizeTarget(size, maxSize).value else size;
            var sized := withSize.(resized := due, newSize := Some(final));
            match probe.saved
            case Err(e) => sized.(error := Some(e))
            case Ok(_) =>
              match probe.outputBytes
              case Err(e) => sized.(error := Some(e))
              case Ok(outBytes) => sized.(outputBytes := outBytes)
  }

  /**
   * The size the resampler is asked for once a resize is due; it refuses
   * a size with a zero side. A granted size shrinks the image and puts its
   * longest side on `maxSize`.
   */
  function ResizeTarget(size: Size, maxSize: nat): (r: Result<Size>)
    requires IsImageSize(size) && NeedsResize(size.width, size.height, maxSize)
    ensures r.Ok? <==>
      CalculateNewSize(size.width, size.height, maxSize).width > 0 &&
      CalculateNewSize(size.width, size.height, maxSize).height > 0
    ensures r.Ok? ==> r.value == CalculateNewSize(size.width, size.height, maxSize)
    ensures r.Ok? ==>
      Longest(r.value.width, r.value.height) == maxSize &&
      1 <= r.value.width <= size.width && 1 <= r.value.height <= size.height
  {
    var n := CalculateNewSize(size.width, size.height, maxSize);
    ResizeShrinks(size.width, size.height, maxSize);
    if n.width > 0 && n.height > 0 then Ok(n) else Err(ZeroSizeMessage)
  }

  /**
   * A resample that raises after the size is known, even with an empty
   * message, leaves the original size recorded, no new size and the image
   * not marked resized.
   */
  lemma ResampleFailureKeepsOriginalSize(input: Path, output: Path, maxSize: nat, probe: Probe)
    requires IsProbe(probe) && probe.inputBytes.Ok? && probe.decoded.Ok? && probe.converted.Ok?
    requires NeedsResize(probe.decoded.value.width, probe.decoded.value.height, maxSize)
    requires ResizeTarget(probe.decoded.value, maxSize).Ok? && probe.resampled.Err?
    ensures var r := ProcessImage(input, output, maxSize, probe);
      r.error == Some(probe.resampled.message) && r.originalSize == Some(probe.decoded.value) &&
      r.newSize.None? && !r.resized && r.outputBytes == 0
  {}

  /** An image wider than 3000 times its height loses its height when capped at 3000 pixels. */
  lemma ThinImageIsRefused(input: Path, output: Path)
    ensures var probe := Probe(Ok(100), Ok(Size(9000, 2)), Ok(()), Ok(()), Ok(()), Ok(50));
      ProcessImage(input, output, 3000, probe).error == Some(ZeroSizeMessage) &&
      !ProcessImage(input, output, 3000, probe).resized
  {
    assert CalculateNewSize(9000, 2, 3000).height == 0;
  }
}

=== FILE: wrappers.dfy ===
/** Failure-carrying values shared by the other modules. */
module Wrappers {

  /** An optional value: `None` stands for Python's `None`. */
  datatype Option<T> = None | Some(value: T)

  /** The outcome of a step that can raise: `Err` carries `str(exception)`. */
  datatype Result<T> = Ok(value: T) | Err(message: string)
}
